=== FILE: README.md ===
# docker-store core, modelled in Dafny

docker-store is a self-hosted "app store" for Docker Compose applications. This
project models the logic at its core as pure Dafny functions over immutable
data, and proves properties of them:

- **Source registry** (`Sources`, `sources.dfy`). This is the ordered list of catalog
  sources kept in one JSON file. It covers adding with a duplicate-URL check,
  updating the first record with a given id, and removing by id.
- **Source processing** (`Processor`, `processor.dfy`). This is how a source is refreshed.
  A ZIP source is downloaded and unpacked into a temporary directory. Its
  `Apps` folder is located and copied into the source's cache directory. The
  outcome (`success` or `error` with the message) is written back to the
  registry, and the error is re-thrown.
- **Catalog assembly** (`Catalog`, `Processor`). This builds one App per bundle folder
  of a cached ZIP source, including icon, readme, screenshots sorted by number
  and compose path. For Yacht template lists it builds a compose service, with
  `!token` substitution from the Yacht dictionary. For plain JSON lists it
  builds one entry per item. Only sources whose status is `success` contribute.
- **Settings** (`Settings`, `SettingsEditor`). The stored settings are merged
  over the defaults. The settings page's key/value editor is reduced to the
  Yacht dictionary on save.
- **URL guard** (`UrlGuard`). `isSafeUrl` checks the scheme and the host-name text.
  Besides non-web schemes it refuses only the literals `localhost`,
  `127.0.0.1` and `::1`, host names starting with `192.168.`, `10.` or
  `0.0.0.0`, and four-label `172.` names whose second label is 16 to 31.
  Other 127/8 addresses pass, and so does `[::1]`: the WHATWG URL parser
  gives an IPv6 host with its brackets, so the `::1` test does not fire for it.
- **Deployments** (`Deployments`, `ManageApps`). This resolves the current deployment
  directory of an installed app. The legacy root compose file comes first;
  otherwise it is the greatest timestamp directory holding a compose file.
  The managed-apps listing is built on top of it.
- **TrueNAS values** (`TrueNas`). This derives the Helm values of a TrueNAS chart from the
  first service of a compose document.
- **HTTP and UI helpers** (`SourcesRoute`, `StoreView`). These are the `POST`/`DELETE`
  handlers of the sources API, the store page's search-and-source filter, and
  the label shown for a source.

The shared vocabulary lives in four helper modules:

- `Json` models JavaScript values (`undefined`, truthiness, property access,
  `String(v)`, spreads and assignment).
- `FsTree` models the file system: a map from paths to nodes, with subtree
  mounting and removal.
- `Strings` covers prefix/suffix tests, ASCII lower-casing, `split`, decimal
  rendering and `parseInt`.
- `Seqs` covers `filter`, `find`, `map` when the callback may throw, and a
  stable sort.

The model has no I/O. The file-system snapshot, the HTTP responses, the parsed
documents, the YAML dumper, the clock and the uuid generator are all
parameters. JavaScript exceptions are `None` (or a dedicated response
constructor).

Three behaviours of the code are worth knowing, because they differ from
what one might expect of it:

- A plain-JSON catalog entry may carry neither a compose path nor compose
  content. Bundle entries carry only a path, and Yacht entries only content.
- The `Apps` folder of an archive is taken from the top level, or else from
  the first top-level directory that has one, in listing order.
- The temporary extraction directory is removed only when processing
  succeeds. A thrown error skips the final removal.

## Model

| member | source | states |
|---|---|---|
| Sources.AddSource | lib/sources.ts:30-38 | Fails with "Source with this URL already exists" exactly when some stored source has the URL. Otherwise the list is the old one with the source appended; URL uniqueness is preserved. |
| Sources.FindIndex | lib/sources.ts:42 | The result is the first index holding the id, or none when no source has it. |
| Sources.UpdateSource | lib/sources.ts:40-47 | An unknown id leaves the file untouched. Otherwise exactly the first record with the id is replaced, and the rest and the length are unchanged. |
| Sources.RemoveSource | lib/sources.ts:49-53 | The list is always rewritten. It holds exactly the old sources whose id differs. |
| Sources.RemoveKeepsOrder | lib/sources.ts:51 | The remaining sources keep their relative order (a subsequence). |
| Sources.RemoveAbsent | lib/sources.ts:49-53 | Removing an id no source has rewrites the same list. |
| Sources.RemoveKeepsUnique | lib/sources.ts:49-53 | Removal cannot create duplicate URLs. |
| Sources.UpdateKeepsUnique | lib/sources.ts:40-47 | Replacing a record by one with the same URL keeps URLs unique. |
| Settings.GetSettings | lib/settings.ts:31-46 | A missing or unparsable file gives the defaults. A stored dictionary is merged key by key over the 11 default tokens, and stored keys win. A file without one gives exactly the default tokens. Stored display options override theirs. |
| Settings.SaveThenGet | lib/settings.ts:31-58 | Saving complete settings and reading them back gives the same options. The dictionary comes back merged over the defaults. |
| Settings.DefaultTokensSurvive | lib/settings.ts:13-46 | No stored file can remove a default token. |
| SettingsEditor.ToYacht | app/settings/page.tsx:32-35 | A key is in the saved dictionary exactly when it is non-empty, is not `__proto__` (whose assignment runs the inherited accessor) and some row has it. |
| SettingsEditor.LastRowWins | app/settings/page.tsx:32-35 | For a key given by several rows, the value of the last row wins. |
| SettingsEditor.SaveBody | app/settings/page.tsx:32-40 | The posted body carries only `yacht`, with exactly the non-empty row keys other than `__proto__`. |
| SettingsEditor.EditorSaveResetsOptions | app/settings/page.tsx:37-41 | Saving from the editor overwrites the file, so the display options read back as their defaults. |
| SettingsEditor.LoadEntries | app/settings/page.tsx:15-28 | The rows are the own entries of `data.yacht`, in order, each with its key and its value as text. A falsy `yacht` gives no rows, and so does a `null` response, whose load fails. |
| SettingsEditor.LoadThenSave | app/settings/page.tsx:19-35 | Loading a `yacht` object of distinct keys and text values and saving it unchanged gives back every non-empty key other than `__proto__` with its value. |
| SettingsEditor.UpdateEntry | app/settings/page.tsx:52-56 | Only the chosen field of the chosen row changes. A missing row changes nothing. |
| SettingsEditor.RemoveEntry | app/settings/page.tsx:58-62 | An index in range removes exactly that row and keeps the order of the rest. A negative index counts from the end, and one before the start removes the first row, as `splice` does. An index past the end removes nothing. |
| SettingsEditor.AddEntry | app/settings/page.tsx:64-66 | One blank row is appended after the unchanged rows. |
| SettingsEditor.AddEntryInvisible | app/settings/page.tsx:64-66 | A blank row never reaches the saved dictionary. |
| UrlGuard.IsSafeUrl | lib/utils.ts:8-33 | An accepted URL parsed and is `http:`/`https:`. Its host is none of the literals `localhost`, `127.0.0.1`, `::1` and does not start with `192.168.`, `10.` or `0.0.0.0`. |
| UrlGuard.SafeWebHost | lib/utils.ts:11-30 | For web schemes, acceptance holds exactly when none of the literal, prefix and `172.16`–`172.31` tests fires. |
| UrlGuard.QuadPrefixes | lib/utils.ts:19-22 | On a dotted-decimal host, each prefix test holds exactly when the leading labels have the given values. |
| UrlGuard.QuadZeroPrefix | lib/utils.ts:19 | The `0.0.0.0` prefix test fires only for the address 0.0.0.0. |
| UrlGuard.QuadSplit | lib/utils.ts:23 | A dotted-decimal host splits into its four labels. |
| UrlGuard.QuadLoopback | lib/utils.ts:16 | Among dotted-decimal hosts only 127.0.0.1 matches one of the three refused literals. |
| UrlGuard.Quad172 | lib/utils.ts:22-27 | The `172.` test fires exactly for 172.16.0.0/12. |
| UrlGuard.QuadVerdict | lib/utils.ts:8-33 | A dotted-decimal host is refused exactly on 10/8, 172.16/12, 192.168/16, 127.0.0.1 and 0.0.0.0. Other 127/8 addresses pass. |
| Deployments.Greatest | lib/server-utils.ts:14-26 | The result is a directory name holding a compose file that is greatest in string order, or none when no name qualifies. |
| Deployments.GreatestUnique | lib/server-utils.ts:18-19 | Only one candidate can be greatest, so the choice is determined. |
| Deployments.LatestDeployment | lib/server-utils.ts:4-32 | A missing base gives none. The base is returned exactly when it holds the compose file. Otherwise the result is the greatest listed subdirectory with a compose file, and it exists exactly when one does. Listing failure gives none. |
| ManageApps.AppRecord | app/api/manage/apps/route.ts:23-42 | The record has `name`, `path` and `valid` (a deployment was resolved), and every stored detail key overrides them. It has no other keys. |
| ManageApps.Details | app/api/manage/apps/route.ts:27-35 | No deployment, a missing or unreadable details file, or a parse failure gives no details. Otherwise the details are the own entries of the parsed value. |
| ManageApps.ListApps | app/api/manage/apps/route.ts:8-48 | The result is 401 exactly without a session and without `DEBUG=true`. An unset or missing download path gives an empty list, and a listing failure gives 500. Otherwise there is one record per subdirectory, in order. |
| ManageApps.ListedAreDirectories | app/api/manage/apps/route.ts:20-22 | The listed names are exactly the subdirectories, in listing order. |
| TrueNas.FirstService | lib/truenas.ts:8-13 | The first service is the value under the first key of `services`, and none when there are no keys. |
| TrueNas.ImageRef | lib/truenas.ts:15-21 | The repository and tag are the first two `:` parts of the image, with an empty part replaced by `image` or `latest`; no image gives `image:latest`. A truthy image that is not a string throws. |
| TrueNas.ImageRoundTrip | lib/truenas.ts:15-21 | `repo:tag` gives back both parts, `repo` alone gets `latest`, and no image gives `image:latest`. |
| TrueNas.ImageExtraParts | lib/truenas.ts:15 | Parts after the second `:` are ignored. |
| TrueNas.ImageEmptyRepository | lib/truenas.ts:15-19 | `:tag` gets the repository `image`. |
| TrueNas.PortsOfEntry | lib/truenas.ts:50-56 | A string with at least two `:` parts gives `parseInt` of the first two. A string with one part, or an entry that is not a string, keeps the defaults 10000 and 80. |
| TrueNas.Ports | lib/truenas.ts:49-57 | Only `ports[0]` is read, and only when `ports.length > 0`: the first entry of a non-empty list, the first character of a non-empty string, or field `"0"` of an object whose `length` field is a positive number or `true`. An empty list, and any falsy or length-less value, keeps the defaults. |
| TrueNas.PortsRoundTrip | lib/truenas.ts:51-56 | The entry `"h:c"` gives port `h` and target port `c`. |
| TrueNas.PortsWithAddress | lib/truenas.ts:52-55 | For `"addr:h:c"` the address is read as the port and `h` as the target port. |
| TrueNas.EnvEntry | lib/truenas.ts:62-64 | The key is the text before the first `=` and the value the text up to the next one, or empty. An entry that is not a string throws. |
| TrueNas.EnvEntryRoundTrip | lib/truenas.ts:62-64 | `KEY=value` gives back the pair, and `KEY` alone gets an empty value. |
| TrueNas.EnvEntries | lib/truenas.ts:61-65 | A list gives one pair per entry, and throws exactly when an entry is not a string. |
| Json.Store | lib/truenas.ts:64 | Assigning fields one by one onto `{}` gives exactly the keys named by some field, except `__proto__`, whose assignment runs the inherited accessor and creates no own key. |
| Json.StoreGet | lib/processor.ts:220 | After assigning fields onto `{}`, each key other than `__proto__` holds the value of its last field, and `__proto__` stays absent. |
| TrueNas.Env | lib/truenas.ts:60-69 | A falsy environment is empty, and an object is copied. A list is assigned in order onto `{}` and throws exactly on an entry that is not a string. |
| TrueNas.EnvLastWins | lib/truenas.ts:62-64 | For a list environment, a key is a variable exactly when some entry names it and it is not `__proto__`, and the last entry naming it decides its value. |
| TrueNas.VolumeOf | lib/truenas.ts:74-95 | Only a string whose first two `:` parts are non-empty gives an entry. It is an ixVolume exactly when the host does not start with `/`, `.` or `~`. |
| TrueNas.VolumeNameInjective | lib/truenas.ts:78 | Distinct indexes give distinct `vol<i>` names. |
| TrueNas.Persistence | lib/truenas.ts:72-99 | `vol<i>` is present exactly when entry `i` is usable, and it holds that entry. There are no other keys. |
| TrueNas.VolumesOf | lib/truenas.ts:72 | Only a volume list has persistence entries. |
| TrueNas.GenerateTrueNasValues | lib/truenas.ts:3-105 | A document that does not load gives the error text. A falsy document, no `services`, or no first service gives "no services". Otherwise the output is the one derived from the first service. |
| TrueNas.FromService | lib/truenas.ts:15-104 | Values are produced exactly when the service is readable, its image splits and its environment can be read; otherwise the error text. They carry the image, ports, environment and persistence derived from the service. |
| TrueNas.OnlyFirstService | lib/truenas.ts:11-13 | Services after the first never change the output. |
| TrueNas.VolumeEntries | lib/truenas.ts:73-78 | Entry `i` of the service's volume list maps to `vol<i>` exactly when usable, so skipped entries leave gaps. |
| Catalog.ComposeFileOf | lib/processor.ts:120-121 | `docker-compose.yml` is preferred over `.yaml`. None means neither exists. |
| Catalog.FirstDigitRun | lib/processor.ts:142-143 | The result is the maximal digit run starting at the first digit, and empty exactly when there is no digit. |
| Catalog.ShotNumberOfScreenshot | lib/processor.ts:141-146 | A screenshot file is ordered by the number written right after `screenshot-`. |
| Catalog.Screenshots | lib/processor.ts:139-155 | There is one URL per matching file, in sorted order, under the public path. |
| Catalog.ScreenshotsSpec | lib/processor.ts:139-145 | The screenshots are exactly the matching files, as a permutation. They are sorted by number, and equally numbered ones stay in listing order. |
| Catalog.IconUrl | lib/processor.ts:126 | The icon is the first image file of the listing, and undefined when there is none. |
| Catalog.Description | lib/processor.ts:129-137 | The description is the text of the first readme file. It is undefined when there is none or reading it fails. |
| Catalog.BundleApp | lib/processor.ts:115-162 | An entry exists exactly when a compose file does. The id is `<source>-<folder>`, and the compose path is under `/storage/<source>/<folder>`. Icon, readme and screenshots are as above, with no compose content. |
| Catalog.ScreenshotIsImage | lib/processor.ts:127-141 | Every screenshot file name also matches the image pattern. |
| Catalog.IconMayBeScreenshot | lib/processor.ts:127-141 | When the first file of a listing is a screenshot, it is also chosen as the icon. |
| Catalog.PortEntry | lib/processor.ts:182-186 | A string is kept. An object or array gives its first own value (undefined when empty), and other kinds become `null`. `null` throws in `Object.values`. |
| Catalog.PortEntries | lib/processor.ts:182-185 | The map throws exactly when some entry is `null`. Otherwise there is one mapped value per entry. |
| Catalog.YachtPorts | lib/processor.ts:181-187 | Only an array maps, and it throws exactly on a non-array or a `null` entry. Otherwise the result is the mapped entries with the falsy ones filtered out. |
| Catalog.YachtPortsStrings | lib/processor.ts:182-186 | A list of non-empty port strings is copied unchanged. |
| Catalog.HostPathOf | lib/processor.ts:192-202 | A configured token becomes its value, and an unconfigured `!x` becomes `./x`. Anything else is kept. |
| Catalog.VolumeEntry | lib/processor.ts:191-205 | The entry is `host:container` with the substituted host. It throws on `null`/`undefined`. |
| Catalog.VolumeEntries | lib/processor.ts:190-206 | The map throws exactly when an entry is `null`/`undefined`. Otherwise there is one rendered entry per item. |
| Catalog.VolumeSubstitution | lib/processor.ts:195-204 | A bind `!token` becomes its configured path, or `./token` when unconfigured. |
| Catalog.EnvValue | lib/processor.ts:213-218 | A configured default token becomes its value. Otherwise the value is the default, or `""`. |
| Catalog.EnvAssignment | lib/processor.ts:211-221 | The assignment pairs `String(e.name)` with the substituted default. Reading an entry throws exactly on `null`/`undefined`. |
| Catalog.EnvAssignments | lib/processor.ts:209-222 | There is one assignment per entry, and it throws exactly on a `null`/`undefined` entry. |
| Catalog.YachtService | lib/processor.ts:175-222 | The service has the image and a restart policy defaulting to `unless-stopped`. `ports`, `volumes` and `environment` are present exactly when the item's fields are truthy. It throws exactly when a field is not an array or an entry is unreadable. |
| Catalog.ServiceLayout | lib/processor.ts:175-222 | The assembled service reads back `image` and `restart` from the base fields. The optional `ports`, `volumes` and `environment` parts contribute only their own keys. |
| Catalog.ComposeObject | lib/processor.ts:224-229 | The compose object has version "3" and exactly one service, keyed by the item name. |
| Catalog.YachtApp | lib/processor.ts:173-238 | An app is built exactly when the service builds and its compose object dumps. Its id is `<source>-<name>`, its name the title or else the name, and its compose content the dump. |
| Catalog.YachtEnvLastWins | lib/processor.ts:209-222 | In the environment, a key is present exactly when some entry names it and it is not `__proto__`, and the last entry naming it decides its value. |
| Catalog.YachtApps | lib/processor.ts:172-239 | There is one app per template item, and any throwing item discards the list. |
| Catalog.PlainApp | lib/processor.ts:241-248 | `null`/`undefined` items throw. Otherwise the entry carries the given uuid and a name defaulting to `Unknown`, so the name is always truthy. The icon falls back to `image`, and the compose content is `docker_compose` or else `compose`. |
| Catalog.PlainApps | lib/processor.ts:240-249 | There is one entry per item, each with its own uuid. It throws exactly on a `null`/`undefined` item. |
| Catalog.PlainAppIds | lib/processor.ts:240-249 | Each plain entry carries the uuid of its position and the source id, so distinct uuids give distinct entries. |
| Processor.DirsApart | lib/processor.ts:55-63 | The cache and temporary directories of a source are disjoint. |
| Processor.LocateAppsFolder | lib/processor.ts:69-93 | The result is `Apps` at the top if it exists. Otherwise it is `Apps` in the first listed top-level directory that has one, and none when neither exists. |
| Processor.LocateInSubtree | lib/processor.ts:71-85 | Locating inside the unpacked directory equals locating in the archive tree on its own. |
| Processor.Prepare | lib/processor.ts:55-67 | Nothing remains under the old cache, and the temporary directory holds exactly the unpacked tree. Nothing outside both changes. |
| Processor.Install | lib/processor.ts:87-96 | The cache holds exactly the `Apps` folder's contents, and the temporary directory is gone. Nothing else changes. |
| Processor.CopyApps | lib/processor.ts:69-96 | No folder fails with the `No "Apps" folder` message. An `Apps` file fails with the copy error. A directory is cached and the temporary directory removed. |
| Processor.ProcessZip | lib/processor.ts:47-97 | A corrupt archive or an extraction failure throws. On success the cache equals the located `Apps` folder. Nothing outside the two directories changes. |
| Processor.Outcome | lib/processor.ts:29-43 | The written record is the same source stamped with the time: `success` with no error, or `error` with the message. |
| Processor.ProcessSource | lib/processor.ts:17-45 | The registry gets the outcome. A JSON source never touches storage. A received ZIP archive has the storage and error of its processing. An HTTP failure throws `Failed to download ZIP: `/`Failed to fetch JSON: ` followed by the status text. |
| Processor.ProcessedRecord | lib/processor.ts:17-45 | After processing, the source's record says `success` without error, or `error` with the re-thrown message. No other record changes. |
| Processor.BundleApps | lib/processor.ts:113-163 | There is one entry per bundle folder (a directory with a compose file), in listing order. All entries carry the source id and a compose path. |
| Processor.BundleAppsComplete | lib/processor.ts:113-163 | Every folder with a compose file gives its entry. |
| Processor.BundleAppsSound | lib/processor.ts:113-163 | Only entries of bundle folders are listed. |
| Processor.SourceApps | lib/processor.ts:106-254 | A source that is not `success` gives nothing. A cached ZIP source gives its bundle entries, and an uncached one nothing. A fetched JSON array gives its Yacht or plain entries, or nothing when one throws; a non-array or failed fetch gives nothing. It throws exactly when a ZIP cache path exists but is not a directory. |
| Processor.GetAllApps | lib/processor.ts:99-257 | The catalog is the sources' contributions in order. It throws exactly when some source's contribution throws. |
| Processor.GetAllAppsAppend | lib/processor.ts:106-255 | The catalog of two source lists laid end to end joins their catalogs. |
| Processor.OnlySucceededCount | lib/processor.ts:107 | The catalog equals the one built from the `success` sources alone. |
| Processor.FailingJsonSourceSkipped | lib/processor.ts:166-253 | A JSON source whose fetch fails contributes nothing, and the other sources are still listed. |
| SourcesRoute.KindOf | app/api/sources/route.ts:21 | The type is `zip` exactly when the URL ends with `.zip`. |
| SourcesRoute.Post | app/api/sources/route.ts:12-47 | An unparsable or null body gives 500. A missing or falsy `url` gives 400. A non-string `url` gives 500. Every such response leaves registry and storage unchanged. |
| SourcesRoute.Register | app/api/sources/route.ts:33-43 | A failed add is an internal error that changes nothing. |
| SourcesRoute.RegisterRecords | app/api/sources/route.ts:33-43 | A known URL changes nothing. Otherwise the source is appended, and the stored record carries the processing outcome. The response is 200 with the pending record, or 201 with the error. |
| SourcesRoute.PostRegisters | app/api/sources/route.ts:12-47 | A new URL is appended with its type from the suffix and its flag from `!!isYacht`. It stays registered even when processing fails (201). A duplicate gives 500. |
| SourcesRoute.Delete | app/api/sources/route.ts:49-57 | A missing or empty id gives 400 and changes nothing. Otherwise exactly the sources with that id are removed. |
| StoreView.MatchesSearch | components/store-interface.tsx:23-24 | The name, or else a truthy description, contains the search text, case-insensitively. A non-string name, or a truthy non-string description it reaches, throws. |
| StoreView.FilterApps | components/store-interface.tsx:22-29 | It throws exactly when the search test throws on some app. Otherwise it keeps exactly the apps that match and come from the selected source (or `all`). |
| StoreView.FilterAppsOrder | components/store-interface.tsx:22-29 | The kept apps are exactly the accepted ones, in catalog order. |
| StoreView.EmptySearchKeepsAll | components/store-interface.tsx:23-26 | With an empty search and `all`, every app with a string name is shown. |
| StoreView.GetSourceName | components/store-interface.tsx:35-48 | A set name wins, and an unparsable URL gives the URL. A JSON source gives the host name. A ZIP source gives the `/`-free suffix of the URL after its last `/`. |
| StoreView.ZipSourceName | components/store-interface.tsx:40-43 | For `x/file` the ZIP label is `file`. |

## Left out

- I/O is not modelled. File reads, writes, removals and `mkdirSync` act on an immutable snapshot (`FsTree.Fs`). Parent listings are not updated when a subtree is mounted or removed, because no modelled reader depends on them.
- `fetch` and the archive reader are inputs: the `Fetch`/`Archive` values, and the parsed JSON per URL for the catalog. AdmZip's own behaviour (entry paths, overwrites) is not modelled. A copy of an `Apps` entry that is not a directory fails with the `copyError` input.
- `js-yaml` load and dump, `JSON.parse`, `uuidv4` and `new Date()` are parameters. The TrueNAS output is the values object before it is dumped.
- Numbers are integers. Floating point and `NaN` values inside documents are not modelled; `parseInt`'s `NaN` is `None`.
- Objects are ordered field lists. JavaScript's ordering of integer-like keys first is not modelled.
- Strings compare by character code. JavaScript sorts by UTF-16 code units, which differs only outside the Basic Multilingual Plane.
- `toLowerCase` is modelled on ASCII letters only.
- The Yacht dictionary is a string map, so inherited prototype keys (`constructor`, …) are not looked up.
- An assignment `o["__proto__"] = v` creates no own key; it is modelled by leaving the key out (`Json.Store`, `SettingsEditor.ToYacht`). When `v` is an object the code also replaces the prototype, which only inherited lookups could see and which the model does not track.
- TrueNas.Ports: an object `ports` whose `length` field is a string or an object is treated as having no length. JavaScript converts such a field to a number before `> 0` (so `{length: "1", 0: "8080:80"}` gives 8080 and 80 in the code); the model keeps the defaults.
- Settings.GetSettings: stored fields are typed. A `null` stored in the file (which the spread would copy over a default) is not modelled.
- SettingsEditor.LoadEntries: a loaded dictionary value that is not a string is shown as its `String()` text. The page keeps the raw value, and that differs only when the row is saved back unchanged.
- `saveSettings`' write failure and the logging are left out.
- Authentication, React state and rendering, the lifecycle routes (start/stop/remove through the container engine) and the thin `GET` routes are not part of this model.
- Concurrent requests are not modelled. Each operation runs alone on its snapshot.
- A listing failure of the temporary directory while locating `Apps` is read as an empty listing. It cannot happen right after the directory was created.
- The existence checks in front of the forced removals of the cache and temporary directories are not modelled separately. A forced removal of a missing path changes nothing.
- The code has no path-traversal filtering of archive entries and no download size limit, so neither is modelled.
- The ZIP extraction failure is one optional message, so partial extraction output is kept as given.
- TrueNas.PortsWithAddress documents the code's reading of a `host-ip:host:container` entry. The address becomes the port and the host port becomes the target port. This is the behaviour as written and is not treated as a defect.
- SourcesRoute.PostRegisters requires that the generated uuid is not already used by a registered source, as `uuidv4` makes overwhelmingly likely.

=== FILE: catalog.dfy ===
/** The catalog entries `getAllApps` builds (lib/processor.ts:99-258): one
    `App` per bundle folder of a ZIP source, per Yacht template item, or per
    item of a plain JSON list. */
module Catalog {
  import opened Wrappers
  import opened Strings
  import opened Json
  import opened FsTree
  import opened Seqs

  /** A catalog entry. Fields copied from a JSON item keep whatever value the
      item holds there, so they are `Value`s; `Undef` is an absent field. */
  datatype App = App(
    id: string,
    sourceId: string,
    name: Value,
    description: Value,
    iconUrl: Value,
    screenshots: Option<seq<string>>,
    composePath: Option<string>,
    composeContent: Value)

  // ---------------------------------------------------------------------------
  // ZIP bundles

  const ComposeYml := "docker-compose.yml"
  const ComposeYaml := "docker-compose.yaml"

  /** The compose file of a bundle folder, `.yml` before `.yaml`. */
  function ComposeFileOf(fs: Fs, appPath: Path): (r: Option<string>)
    ensures r.Some? <==> Exists(fs, appPath + [ComposeYml]) || Exists(fs, appPath + [ComposeYaml])
    ensures Exists(fs, appPath + [ComposeYml]) ==> r == Some(ComposeYml)
    ensures r == Some(ComposeYaml) ==> !Exists(fs, appPath + [ComposeYml])
  {
    if Exists(fs, appPath + [ComposeYml]) then Some(ComposeYml)
    else if Exists(fs, appPath + [ComposeYaml]) then Some(ComposeYaml)
    else None
  }

  /** `/\.(png|jpg|jpeg|svg|webp)$/i` */
  predicate IsImageName(f: string) {
    var l := Lower(f);
    EndsWith(l, ".png") || EndsWith(l, ".jpg") || EndsWith(l, ".jpeg") || EndsWith(l, ".svg") || EndsWith(l, ".webp")
  }

  /** `/^readme(\.(md|txt|markdown))?$/i` */
  predicate IsReadmeName(f: string) {
    Lower(f) in ["readme", "readme.md", "readme.txt", "readme.markdown"]
  }

  /** `/^screenshot-\d+\.(png|jpg|jpeg|webp)$/i` */
  predicate IsScreenshotName(f: string) {
    var l := Lower(f);
    && StartsWith(l, "screenshot-")
    && var rest := l[11..];
       var ds := LeadingDigits(rest);
       ds != "" && rest[|ds|..] in [".png", ".jpg", ".jpeg", ".webp"]
  }

  /** `s.match(/(\d+)/)?.[0]`: the first run of digits, empty when none. */
  function FirstDigitRun(s: string): (ds: string)
    ensures AllDigits(ds)
    ensures (forall i :: 0 <= i < |s| ==> !IsDigit(s[i])) ==> ds == []
    ensures forall i :: 0 <= i < |s| && IsDigit(s[i]) && (forall j :: 0 <= j < i ==> !IsDigit(s[j]))
              ==> ds == LeadingDigits(s[i..]) && ds != []
  {
    if s == [] then []
    else if IsDigit(s[0]) then assert s[0..] == s; LeadingDigits(s)
    else
      var ds := FirstDigitRun(s[1..]);
      assert forall i :: 0 <= i <= |s[1..]| ==> s[1..][i..] == s[i + 1..];
      ds
  }

  /** The number a screenshot is ordered by: `parseInt` of its first digit
      run, `0` when there is none. */
  function ShotNumber(f: string): nat {
    var ds := FirstDigitRun(f);
    if ds == [] then 0 else DigitsValue(ds)
  }

  /** A screenshot is ordered by the number written after `screenshot-`. */
  lemma ShotNumberOfScreenshot(f: string)
    requires IsScreenshotName(f)
    ensures LeadingDigits(f[11..]) != ""
    ensures ShotNumber(f) == DigitsValue(LeadingDigits(f[11..]))
  {
    var l := Lower(f);
    assert l[..11] == "screenshot-";
    forall j | 0 <= j < 11 ensures !IsDigit(f[j]) {
      assert l[j] == LowerChar(f[j]);
    }
    assert l[11] == LowerChar(f[11]) && IsDigit(l[11]) by {
      assert l[11..][0] == l[11];
    }
    assert IsDigit(f[11]);
  }

  /** `/storage/<sourceId>/<appName>`, where the bundle's files are served. */
  function PublicPath(sourceId: string, appName: string): string {
    "/storage/" + sourceId + "/" + appName
  }

  /** The screenshot URLs of a bundle: the matching files, ordered by number,
      each under the public path. */
  function Screenshots(publicPath: string, files: seq<string>): (r: seq<string>)
    ensures |r| == |Filter(files, IsScreenshotName)|
    ensures forall i :: 0 <= i < |r| ==> r[i] == publicPath + "/" + SortBy(Filter(files, IsScreenshotName), ShotNumber)[i]
  {
    var shots := SortBy(Filter(files, IsScreenshotName), ShotNumber);
    seq(|shots|, i requires 0 <= i < |shots| => publicPath + "/" + shots[i])
  }

  /** The screenshot files are exactly the matching files of the listing
      (with their multiplicity), ordered by number, equally numbered ones in
      listing order. */
  lemma ScreenshotsSpec(files: seq<string>, k: nat)
    ensures var shots := SortBy(Filter(files, IsScreenshotName), ShotNumber);
            && multiset(shots) == multiset(Filter(files, IsScreenshotName))
            && (forall f :: f in shots <==> f in files && IsScreenshotName(f))
            && SortedBy(shots, ShotNumber)
            && WithKey(shots, ShotNumber, k) == WithKey(Filter(files, IsScreenshotName), ShotNumber, k)
  {
    var shots := SortBy(Filter(files, IsScreenshotName), ShotNumber);
    SortByStable(Filter(files, IsScreenshotName), ShotNumber, k);
    forall f ensures f in shots <==> f in Filter(files, IsScreenshotName) {
      assert f in shots <==> f in multiset(shots);
    }
  }

  /** The icon URL: the first image file of the listing, if any. */
  function IconUrl(publicPath: string, files: seq<string>): (r: Value)
    ensures r != Undef <==> exists i :: 0 <= i < |files| && IsImageName(files[i])
    ensures forall i :: 0 <= i < |files| && IsImageName(files[i]) && (forall j :: 0 <= j < i ==> !IsImageName(files[j]))
              ==> r == Str(publicPath + "/" + files[i])
  {
    var icon := Find(files, IsImageName);
    FirstIsUnique(files, IsImageName, icon);
    if icon.Some? then Str(publicPath + "/" + icon.value) else Undef
  }

  /** The first match of `Find` is the only element satisfying the predicate
      with no earlier match. */
  lemma FirstIsUnique(files: seq<string>, p: string -> bool, found: Option<string>)
    requires found == Find(files, p)
    ensures forall i :: 0 <= i < |files| && p(files[i]) && (forall j :: 0 <= j < i ==> !p(files[j]))
              ==> found == Some(files[i])
  {
    forall i | 0 <= i < |files| && p(files[i]) && (forall j :: 0 <= j < i ==> !p(files[j]))
      ensures found == Some(files[i])
    {
      var i' :| 0 <= i' < |files| && files[i'] == found.value && p(files[i'])
                && forall j :: 0 <= j < i' ==> !p(files[j]);
      assert !(i < i') && !(i' < i);
    }
  }

  /** The description: the text of the first readme file of the listing,
      `undefined` when there is none or reading it fails. */
  function Description(fs: Fs, appPath: Path, files: seq<string>): (r: Value)
    ensures (forall i :: 0 <= i < |files| ==> !IsReadmeName(files[i])) ==> r == Undef
    ensures forall i :: 0 <= i < |files| && IsReadmeName(files[i]) && (forall j :: 0 <= j < i ==> !IsReadmeName(files[j]))
              ==> r == (if ReadFile(fs, appPath + [files[i]]).Some? then Str(ReadFile(fs, appPath + [files[i]]).value) else Undef)
  {
    var readme := Find(files, IsReadmeName);
    FirstIsUnique(files, IsReadmeName, readme);
    if readme.None? then Undef
    else match ReadFile(fs, appPath + [readme.value])
      case None => Undef
      case Some(text) => Str(text)
  }

  /** The entry for one bundle folder `appName` under `sourcePath`; `None`
      when it holds no compose file. */
  function BundleApp(fs: Fs, sourceId: string, sourcePath: Path, appName: string): (r: Option<App>)
    requires IsDir(fs, sourcePath + [appName])
    ensures r.Some? <==> ComposeFileOf(fs, sourcePath + [appName]).Some?
    ensures r.Some? ==> var app := r.value;
      && app.id == sourceId + "-" + appName
      && app.sourceId == sourceId
      && app.name == Str(appName)
      && app.composePath == Some(PublicPath(sourceId, appName) + "/" + ComposeFileOf(fs, sourcePath + [appName]).value)
      && app.composeContent == Undef
      && app.description == Description(fs, sourcePath + [appName], fs[sourcePath + [appName]].entries)
      && app.iconUrl == IconUrl(PublicPath(sourceId, appName), fs[sourcePath + [appName]].entries)
      && app.screenshots == Some(Screenshots(PublicPath(sourceId, appName), fs[sourcePath + [appName]].entries))
  {
    var appPath := sourcePath + [appName];
    match ComposeFileOf(fs, appPath)
    case None => None
    case Some(composeFile) =>
      var files := ReadDir(fs, appPath).value;
      var publicPath := PublicPath(sourceId, appName);
      Some(App(
        sourceId + "-" + appName,
        sourceId,
        Str(appName),
        Description(fs, appPath, files),
        IconUrl(publicPath, files),
        Some(Screenshots(publicPath, files)),
        Some(publicPath + "/" + composeFile),
        Undef))
  }

  /** Every screenshot file name is also an image file name. */
  lemma ScreenshotIsImage(f: string)
    requires IsScreenshotName(f)
    ensures IsImageName(f)
  {
    var l := Lower(f);
    var rest := l[11..];
    var ext := rest[|LeadingDigits(rest)|..];
    assert ext == l[|l| - |ext|..];
    assert EndsWith(l, ext);
  }

  /** The first image file is chosen as the icon even when it is one of the
      screenshots. */
  lemma IconMayBeScreenshot(publicPath: string, files: seq<string>)
    requires files != [] && IsScreenshotName(files[0])
    ensures IconUrl(publicPath, files) == Str(publicPath + "/" + files[0])
  {
    ScreenshotIsImage(files[0]);
  }

  // ---------------------------------------------------------------------------
  // Yacht templates

  /** The Yacht token dictionary: a lookup `yachtDefaults[token]` is truthy
      when the token is configured with a non-empty value. */
  predicate Configured(yacht: map<string, string>, token: string) {
    token in yacht && yacht[token] != ""
  }

  /** One `ports` entry: a string is kept, an object gives its first value,
      anything else becomes `null`; `None` when `Object.values(null)` throws. */
  function PortEntry(p: Value): (r: Option<Value>)
    ensures r.None? <==> p.Null?
    ensures p.Str? ==> r == Some(p)
    ensures p.Obj? || p.Arr? ==> r == Some(if OwnEntries(p) == [] then Undef else OwnEntries(p)[0].val)
    ensures p.Undef? || p.Bool? || p.Num? ==> r == Some(Null)
  {
    match p
    case Str(_) => Some(p)
    case Null => None
    case Obj(fields) => Some(if fields == [] then Undef else fields[0].val)
    case Arr(items) => Some(if items == [] then Undef else items[0])
    case _ => Some(Null)
  }

  function PortEntries(ps: seq<Value>): (r: Option<seq<Value>>)
    ensures r.None? <==> exists i :: 0 <= i < |ps| && ps[i].Null?
    ensures r.Some? ==> |r.value| == |ps| && forall i :: 0 <= i < |ps| ==> Some(r.value[i]) == PortEntry(ps[i])
  {
    Traverse(ps, PortEntry)
  }

  /** `item.ports.map(...).filter(Boolean)`; `None` when it throws. */
  function YachtPorts(ports: Value): (r: Option<seq<Value>>)
    ensures r.Some? ==> ports.Arr? && forall v :: v in r.value ==> Truthy(v)
    ensures r.None? <==> !ports.Arr? || exists i :: 0 <= i < |ports.items| && ports.items[i].Null?
    ensures r.Some? ==> r.value == Filter(PortEntries(ports.items).value, Truthy)
  {
    if !ports.Arr? then None
    else
      var mapped := PortEntries(ports.items);
      if mapped.None? then None else Some(Filter(mapped.value, Truthy))
  }

  /** A list of non-empty port strings is copied unchanged. */
  lemma YachtPortsStrings(ps: seq<string>)
    requires forall i :: 0 <= i < |ps| ==> ps[i] != ""
    ensures YachtPorts(Arr(seq(|ps|, i requires 0 <= i < |ps| => Str(ps[i]))))
         == Some(seq(|ps|, i requires 0 <= i < |ps| => Str(ps[i])))
  {
    var vs := seq(|ps|, i requires 0 <= i < |ps| => Str(ps[i]));
    var mapped := PortEntries(vs).value;
    assert mapped == vs;
    FilterKeepsAll(vs, Truthy);
  }

  /** The host side of a volume: a configured token is replaced by its
      value, an unconfigured `!token` becomes `./token`, anything else stays. */
  function HostPathOf(bind: Value, yacht: map<string, string>): (r: Value)
    ensures !(Truthy(bind) && bind.Str?) ==> r == bind
    ensures bind.Str? && bind.s != "" && Configured(yacht, bind.s) ==> r == Str(yacht[bind.s])
    ensures bind.Str? && bind.s != "" && !Configured(yacht, bind.s) && bind.s[0] == '!' ==> r == Str("./" + bind.s[1..])
    ensures bind.Str? && !Configured(yacht, bind.s) && !StartsWith(bind.s, "!") ==> r == bind
  {
    if Truthy(bind) && bind.Str? then
      if Configured(yacht, bind.s) then Str(yacht[bind.s])
      else if StartsWith(bind.s, "!") then Str("./" + bind.s[1..])
      else bind
    else bind
  }

  /** One `volumes` entry rendered as `host:container`; `None` when reading
      `v.bind` throws. */
  function VolumeEntry(v: Value, yacht: map<string, string>): (r: Option<Value>)
    ensures r.None? <==> v.Undef? || v.Null?
    ensures r.Some? ==> r.value == Str(JsString(HostPathOf(Prop(v, "bind").value, yacht)) + ":" + JsString(Prop(v, "container").value))
  {
    match Prop(v, "bind")
    case None => None
    case Some(bind) => Some(Str(JsString(HostPathOf(bind, yacht)) + ":" + JsString(Prop(v, "container").value)))
  }

  function VolumeEntries(vs: seq<Value>, yacht: map<string, string>): (r: Option<seq<Value>>)
    ensures r.None? <==> exists i :: 0 <= i < |vs| && (vs[i].Undef? || vs[i].Null?)
    ensures r.Some? ==> |r.value| == |vs| && forall i :: 0 <= i < |vs| ==> Some(r.value[i]) == VolumeEntry(vs[i], yacht)
  {
    Traverse(vs, (v: Value) => VolumeEntry(v, yacht))
  }

  /** A bind `!token` that the dictionary configures becomes its configured
      path; one it does not configure becomes `./token`. */
  lemma VolumeSubstitution(token: string, container: string, yacht: map<string, string>)
    ensures var v := Obj([Field("bind", Str(['!'] + token)), Field("container", Str(container))]);
            VolumeEntry(v, yacht) == Some(Str(
              (if Configured(yacht, ['!'] + token) then yacht[['!'] + token] else "./" + token)
              + ":" + container))
  {
    var v := Obj([Field("bind", Str(['!'] + token)), Field("container", Str(container))]);
    assert Get(v.fields, "bind") == Str(['!'] + token);
    assert Get(v.fields, "container") == Get([Field("container", Str(container))], "container") == Str(container);
    assert (['!'] + token)[1..] == token;
  }

  /** The value an `env` entry contributes: its default or `""`, replaced by
      the configured value when the default is a configured token. */
  function EnvValue(default: Value, yacht: map<string, string>): (r: Value)
    ensures default.Str? && default.s != "" && Configured(yacht, default.s) ==> r == Str(yacht[default.s])
    ensures !(default.Str? && default.s != "" && Configured(yacht, default.s)) ==> r == Or(default, Str(""))
  {
    var val := Or(default, Str(""));
    if Truthy(val) && val.Str? && Configured(yacht, val.s) then Str(yacht[val.s]) else val
  }

  /** One `env` entry as the pair `(e.name, val)` that
      `environment[e.name] = val` assigns; `None` when reading `e.default`
      throws. */
  function EnvAssignment(e: Value, yacht: map<string, string>): (r: Option<Field>)
    ensures r.None? <==> e.Undef? || e.Null?
    ensures r.Some? ==> r.value == Field(JsString(Prop(e, "name").value), EnvValue(Prop(e, "default").value, yacht))
  {
    match Prop(e, "default")
    case None => None
    case Some(default) => Some(Field(JsString(Prop(e, "name").value), EnvValue(default, yacht)))
  }

  function EnvAssignments(es: seq<Value>, yacht: map<string, string>): (r: Option<seq<Field>>)
    ensures r.None? <==> exists i :: 0 <= i < |es| && (es[i].Undef? || es[i].Null?)
    ensures r.Some? ==> |r.value| == |es| && forall i :: 0 <= i < |es| ==> Some(r.value[i]) == EnvAssignment(es[i], yacht)
  {
    Traverse(es, (e: Value) => EnvAssignment(e, yacht))
  }

  /** The field `key: v` when `present`, nothing otherwise. */
  function OptionalField(present: bool, key: string, v: Value): (r: seq<Field>)
    ensures HasKey(r, key) <==> present
    ensures present ==> Get(r, key) == v
    ensures forall k :: k != key ==> !HasKey(r, k)
  {
    if present then
      assert Keys([Field(key, v)]) == [key];
      [Field(key, v)]
    else []
  }

  /** Whether building the service of a Yacht item throws: a truthy `ports`,
      `volumes` or `env` that is not an array, or an entry that cannot be read. */
  predicate ServiceThrows(item: Value, yacht: map<string, string>)
    requires !(item.Undef? || item.Null?)
  {
    var portsV := Prop(item, "ports").value;
    var volumesV := Prop(item, "volumes").value;
    var envV := Prop(item, "env").value;
    || (Truthy(portsV) && YachtPorts(portsV).None?)
    || (Truthy(volumesV) && (!volumesV.Arr? || VolumeEntries(volumesV.items, yacht).None?))
    || (Truthy(envV) && (!envV.Arr? || EnvAssignments(envV.items, yacht).None?))
  }

  /** The service of a Yacht item, its fields in assignment order; `None`
      when building it throws. */
  function YachtService(item: Value, yacht: map<string, string>): (r: Option<seq<Field>>)
    ensures r.None? <==> (item.Undef? || item.Null?) || ServiceThrows(item, yacht)
    ensures r.Some? ==> Get(r.value, "image") == Prop(item, "image").value
    ensures r.Some? ==> Get(r.value, "restart") == Or(Prop(item, "restart_policy").value, Str("unless-stopped"))
    ensures r.Some? ==> var ports := Prop(item, "ports").value;
      && (HasKey(r.value, "ports") <==> Truthy(ports))
      && (Truthy(ports) ==> Get(r.value, "ports") == Arr(YachtPorts(ports).value))
    ensures r.Some? ==> var volumes := Prop(item, "volumes").value;
      && (HasKey(r.value, "volumes") <==> Truthy(volumes))
      && (Truthy(volumes) ==> Get(r.value, "volumes") == Arr(VolumeEntries(volumes.items, yacht).value))
    ensures r.Some? ==> var env := Prop(item, "env").value;
      && (HasKey(r.value, "environment") <==> Truthy(env))
      && (Truthy(env) ==> Get(r.value, "environment") == Obj(Store(EnvAssignments(env.items, yacht).value)))
  {
    if item.Undef? || item.Null? || ServiceThrows(item, yacht) then None
    else
      var portsV := Prop(item, "ports").value;
      var volumesV := Prop(item, "volumes").value;
      var envV := Prop(item, "env").value;
      var base := [Field("image", Prop(item, "image").value),
                   Field("restart", Or(Prop(item, "restart_policy").value, Str("unless-stopped")))];
      var ports := OptionalField(Truthy(portsV), "ports",
                     if Truthy(portsV) then Arr(YachtPorts(portsV).value) else Undef);
      var volumes := OptionalField(Truthy(volumesV), "volumes",
                       if Truthy(volumesV) then Arr(VolumeEntries(volumesV.items, yacht).value) else Undef);
      var env := OptionalField(Truthy(envV), "environment",
                   if Truthy(envV) then Obj(Store(EnvAssignments(envV.items, yacht).value)) else Undef);
      ServiceLayout(base, ports, volumes, env);
      Some(base + (ports + (volumes + env)))
  }

  /** Lookups in the service object, one key at a time. */
  lemma ServiceLayout(base: seq<Field>, ports: seq<Field>, volumes: seq<Field>, env: seq<Field>)
    requires |base| == 2 && base[0].key == "image" && base[1].key == "restart"
    requires forall k :: k != "ports" ==> !HasKey(ports, k)
    requires forall k :: k != "volumes" ==> !HasKey(volumes, k)
    requires forall k :: k != "environment" ==> !HasKey(env, k)
    ensures var all := base + (ports + (volumes + env));
      && Get(all, "image") == base[0].val
      && Get(all, "restart") == base[1].val
      && (HasKey(all, "ports") <==> HasKey(ports, "ports")) && Get(all, "ports") == Get(ports, "ports")
      && (HasKey(all, "volumes") <==> HasKey(volumes, "volumes")) && Get(all, "volumes") == Get(volumes, "volumes")
      && (HasKey(all, "environment") <==> HasKey(env, "environment")) && Get(all, "environment") == Get(env, "environment")
  {
    var tail := ports + (volumes + env);
    assert Keys(base) == ["image", "restart"];
    assert Keys(base + tail) == Keys(base) + Keys(tail);
    assert Keys(ports + (volumes + env)) == Keys(ports) + Keys(volumes + env);
    assert Keys(volumes + env) == Keys(volumes) + Keys(env);
    assert Get(base, "restart") == Get(base[1..], "restart");
    assert !HasKey(ports, "volumes") && !HasKey(ports, "environment");
    assert !HasKey(volumes, "ports") && !HasKey(volumes, "environment");
    assert !HasKey(env, "ports") && !HasKey(env, "volumes");
    GetAppend(base, tail, "ports");
    GetAppend(ports, volumes + env, "ports");
    GetAppend(base, tail, "volumes");
    GetAppend(ports, volumes + env, "volumes");
    GetAppend(volumes, env, "volumes");
    GetAppend(base, tail, "environment");
    GetAppend(ports, volumes + env, "environment");
    GetAppend(volumes, env, "environment");
    GetAppend(base, tail, "image");
    GetAppend(base, tail, "restart");
  }

  /** The compose object `{version: '3', services: {[item.name]: service}}`. */
  function ComposeObject(item: Value, service: seq<Field>): (r: Value)
    requires !(item.Undef? || item.Null?)
    ensures r.Obj? && Get(r.fields, "version") == Str("3")
    ensures var services := Get(r.fields, "services");
            services.Obj? && Keys(services.fields) == [JsString(Prop(item, "name").value)]
            && Get(services.fields, JsString(Prop(item, "name").value)) == Obj(service)
  {
    var key := JsString(Prop(item, "name").value);
    var services := [Field(key, Obj(service))];
    var fields := [Field("version", Str("3")), Field("services", Obj(services))];
    assert Get(fields, "services") == Get(fields[1..], "services");
    assert Keys(services) == [key];
    Obj(fields)
  }

  /** The entry for one Yacht template item; `None` when building it or
      dumping its compose object throws. */
  function YachtApp(sourceId: string, item: Value, yacht: map<string, string>, dump: Value -> Option<string>): (r: Option<App>)
    ensures (item.Undef? || item.Null?) ==> r.None?
    ensures r.Some? <==> YachtService(item, yacht).Some? && dump(ComposeObject(item, YachtService(item, yacht).value)).Some?
    ensures r.Some? ==> var name := Prop(item, "name").value;
      && YachtService(item, yacht).Some?
      && r.value.id == sourceId + "-" + JsString(name)
      && r.value.sourceId == sourceId
      && r.value.name == Or(Prop(item, "title").value, name)
      && r.value.description == Prop(item, "description").value
      && r.value.iconUrl == Prop(item, "logo").value
      && r.value.screenshots.None? && r.value.composePath.None?
      && dump(ComposeObject(item, YachtService(item, yacht).value)).Some?
      && r.value.composeContent == Str(dump(ComposeObject(item, YachtService(item, yacht).value)).value)
  {
    match YachtService(item, yacht)
    case None => None
    case Some(service) =>
      var dumped := dump(ComposeObject(item, service));
      if dumped.None? then None
      else
        var name := Prop(item, "name").value;
        Some(App(sourceId + "-" + JsString(name), sourceId, Or(Prop(item, "title").value, name),
                 Prop(item, "description").value, Prop(item, "logo").value, None, None, Str(dumped.value)))
  }

  /** The environment of a Yacht service maps each entry name to the value of
      its last entry; the name `__proto__` gives no variable. */
  lemma YachtEnvLastWins(item: Value, yacht: map<string, string>, key: string)
    requires YachtService(item, yacht).Some?
    requires Truthy(Prop(item, "env").value)
    ensures var assignments := EnvAssignments(Prop(item, "env").value.items, yacht).value;
            var env := Get(YachtService(item, yacht).value, "environment");
            && env.Obj?
            && (HasKey(env.fields, key) <==> key != ProtoKey && HasKey(assignments, key))
            && Get(env.fields, key) == if key != ProtoKey && HasKey(assignments, key) then GetLast(assignments, key) else Undef
  {
    StoreGet(EnvAssignments(Prop(item, "env").value.items, yacht).value, key);
  }

  /** The entries of a Yacht template list; `None` when any item throws, which
      discards the whole list. */
  function YachtApps(sourceId: string, items: seq<Value>, yacht: map<string, string>, dump: Value -> Option<string>): (r: Option<seq<App>>)
    ensures r.Some? <==> forall i :: 0 <= i < |items| ==> YachtApp(sourceId, items[i], yacht, dump).Some?
    ensures r.Some? ==> |r.value| == |items| && forall i :: 0 <= i < |items| ==> Some(r.value[i]) == YachtApp(sourceId, items[i], yacht, dump)
  {
    Traverse(items, (x: Value) => YachtApp(sourceId, x, yacht, dump))
  }

  // ---------------------------------------------------------------------------
  // Plain JSON lists

  /** The entry for one item of a plain JSON list; `id` is a fresh uuid.
      `None` when reading `item.name` throws. */
  function PlainApp(sourceId: string, item: Value, id: string): (r: Option<App>)
    ensures r.None? <==> item.Undef? || item.Null?
    ensures r.Some? ==>
      && r.value == App(id, sourceId, Or(Prop(item, "name").value, Str("Unknown")),
                        Prop(item, "description").value,
                        Or(Prop(item, "icon").value, Prop(item, "image").value),
                        None, None,
                        Or(Prop(item, "docker_compose").value, Prop(item, "compose").value))
      && Truthy(r.value.name)
  {
    if item.Undef? || item.Null? then None
    else
      Some(App(id, sourceId, Or(Prop(item, "name").value, Str("Unknown")),
               Prop(item, "description").value,
               Or(Prop(item, "icon").value, Prop(item, "image").value),
               None, None,
               Or(Prop(item, "docker_compose").value, Prop(item, "compose").value)))
  }

  /** The entries of a plain JSON list; `uuid(i)` is the id generated for
      item `i`. `None` when any item throws. */
  function PlainApps(sourceId: string, items: seq<Value>, uuid: nat -> string): (r: Option<seq<App>>)
    ensures r.Some? <==> forall i :: 0 <= i < |items| ==> !(items[i].Undef? || items[i].Null?)
    ensures r.Some? ==> |r.value| == |items| && forall i :: 0 <= i < |items| ==> Some(r.value[i]) == PlainApp(sourceId, items[i], uuid(i))
  {
    var f := (i: nat, x: Value) => PlainApp(sourceId, x, uuid(i));
    assert forall i :: 0 <= i < |items| ==> f(0 + i, items[i]) == PlainApp(sourceId, items[i], uuid(i));
    TraverseAt(items, f, 0)
  }

  /** Plain entries carry the source id and the uuid generated for their
      position, so distinct generated ids keep the entries apart. */
  lemma PlainAppIds(sourceId: string, items: seq<Value>, uuid: nat -> string, i: nat, j: nat)
    requires PlainApps(sourceId, items, uuid).Some?
    requires i < |items| && j < |items| && i != j && uuid(i) != uuid(j)
    ensures var apps := PlainApps(sourceId, items, uuid).value;
      && apps[i].id == uuid(i) && apps[i].sourceId == sourceId && Truthy(apps[i].name)
      && apps[i] != apps[j]
  {
    var apps := PlainApps(sourceId, items, uuid).value;
    assert Some(apps[i]) == PlainApp(sourceId, items[i], uuid(i));
    assert Some(apps[j]) == PlainApp(sourceId, items[j], uuid(j));
  }
}

=== FILE: deployments.dfy ===
/** `getLatestDeployment` of lib/server-utils.ts: which directory under an
    application's base directory holds its current compose file. */
module Deployments {
  import opened Wrappers
  import opened Strings
  import opened FsTree

  const ComposeFile := "docker-compose.yml"

  /** A subdirectory of `base` that holds a compose file. */
  predicate IsCandidate(fs: Fs, base: Path, name: string) {
    IsDir(fs, base + [name]) && Exists(fs, base + [name, ComposeFile])
  }

  /** The greatest candidate name among `names` in string order, i.e. the
      first candidate of `names.sort().reverse()`. */
  function Greatest(fs: Fs, base: Path, names: seq<string>): (r: Option<string>)
    ensures r.None? <==> forall i :: 0 <= i < |names| ==> !IsCandidate(fs, base, names[i])
    ensures r.Some? ==> r.value in names && IsCandidate(fs, base, r.value)
    ensures r.Some? ==> forall i :: 0 <= i < |names| && IsCandidate(fs, base, names[i]) ==> LexLe(names[i], r.value)
  {
    if names == [] then None
    else
      var rest := Greatest(fs, base, names[1..]);
      assert forall i :: 1 <= i < |names| ==> names[i] == names[1..][i - 1];
      if !IsCandidate(fs, base, names[0]) then rest
      else
        match rest
        case None =>
          LexLeTotal(names[0], names[0]);
          Some(names[0])
        case Some(m) =>
          if LexLe(names[0], m) then Some(m)
          else
            LexLeTotal(names[0], m);
            forall i | 0 <= i < |names| && IsCandidate(fs, base, names[i]) ensures LexLe(names[i], names[0]) {
              if i == 0 {
                LexLeTotal(names[0], names[0]);
              } else {
                LexLeTrans(names[i], m, names[0]);
              }
            }
            Some(names[0])
  }

  /** Only one name can be greatest among the candidates. */
  lemma GreatestUnique(fs: Fs, base: Path, names: seq<string>, d: string)
    requires d in names && IsCandidate(fs, base, d)
    requires forall i :: 0 <= i < |names| && IsCandidate(fs, base, names[i]) ==> LexLe(names[i], d)
    ensures Greatest(fs, base, names) == Some(d)
  {
    var g := Greatest(fs, base, names).value;
    LexLeAntisym(g, d);
  }

  /** `getLatestDeployment(base)`: the base directory itself when it holds the
      compose file directly, otherwise its greatest subdirectory (in string
      order) that holds one; `None` when the base is missing, cannot be
      listed, or has no such subdirectory. */
  function LatestDeployment(fs: Fs, base: Path): (r: Option<Path>)
    ensures !Exists(fs, base) ==> r.None?
    ensures Exists(fs, base) && Exists(fs, base + [ComposeFile]) ==> r == Some(base)
    ensures r == Some(base) ==> Exists(fs, base + [ComposeFile])
    ensures Exists(fs, base) && !Exists(fs, base + [ComposeFile]) && ReadDir(fs, base).Some? ==>
      (r.Some? <==> exists i :: 0 <= i < |ReadDir(fs, base).value| && IsCandidate(fs, base, ReadDir(fs, base).value[i]))
    ensures Exists(fs, base) && !Exists(fs, base + [ComposeFile]) && ReadDir(fs, base).None? ==> r.None?
    ensures r.Some? ==> r.value == base || (|r.value| == |base| + 1 && r.value[..|base|] == base)
    ensures r.Some? && r.value != base ==>
      var entries := ReadDir(fs, base).value;
      var d := r.value[|base|];
      && d in entries && IsCandidate(fs, base, d)
      && forall i :: 0 <= i < |entries| && IsCandidate(fs, base, entries[i]) ==> LexLe(entries[i], d)
    ensures r.None? && Exists(fs, base) && ReadDir(fs, base).Some? ==>
      forall i :: 0 <= i < |ReadDir(fs, base).value| ==> !IsCandidate(fs, base, ReadDir(fs, base).value[i])
  {
    if !Exists(fs, base) then None
    else if Exists(fs, base + [ComposeFile]) then Some(base)
    else
      match ReadDir(fs, base)
      case None => None
      case Some(entries) =>
        match Greatest(fs, base, entries)
        case None => None
        case Some(d) =>
          assert (base + [d])[..|base|] == base && (base + [d])[|base|] == d;
          Some(base + [d])
  }
}

=== FILE: fstree.dfy ===
/** An immutable snapshot of the filesystem: a map from paths (sequences of
    names) to nodes. A directory node carries its listing in the order
    `readdirSync` returns it. The map is not required to be consistent with
    those listings: `existsSync` consults the map, `readdirSync` the listing,
    exactly as the code does. */
module FsTree {
  import opened Wrappers

  type Path = seq<string>

  datatype Node =
    | File(contents: string)
    | Unreadable             // a file that exists but whose read fails
    | Dir(entries: seq<string>)

  type Fs = map<Path, Node>

  /** `fs.existsSync(p)` */
  predicate Exists(fs: Fs, p: Path) {
    p in fs
  }

  /** `dirent.isDirectory()` for the entry at `p`. */
  predicate IsDir(fs: Fs, p: Path) {
    p in fs && fs[p].Dir?
  }

  /** `fs.readdirSync(p)`; `None` when it throws (missing or not a directory). */
  function ReadDir(fs: Fs, p: Path): (r: Option<seq<string>>)
    ensures r.Some? <==> IsDir(fs, p)
  {
    if IsDir(fs, p) then Some(fs[p].entries) else None
  }

  /** `fs.readFileSync(p, 'utf-8')`; `None` when it throws. */
  function ReadFile(fs: Fs, p: Path): (r: Option<string>)
    ensures r.Some? <==> (p in fs && fs[p].File?)
  {
    if p in fs && fs[p].File? then Some(fs[p].contents) else None
  }

  /** The text of an absolute path, as `path.join` renders it. */
  function PathText(p: Path): string {
    if p == [] then "" else PathText(p[..|p| - 1]) + "/" + p[|p| - 1]
  }

  /** The paths strictly or non-strictly below `root`, relative to it. */
  function Below(fs: Fs, root: Path): set<Path> {
    set q | q in fs && root <= q :: q[|root|..]
  }

  /** The part of the snapshot at or below `root`, re-rooted at `[]`. */
  function Subtree(fs: Fs, root: Path): (sub: Fs)
    ensures forall p :: p in sub <==> root + p in fs
    ensures forall p :: p in sub ==> sub[p] == fs[root + p]
  {
    forall p | root + p in fs ensures p in Below(fs, root) {
      var q := root + p;
      assert q[|root|..] == p;
    }
    map p | p in Below(fs, root) && root + p in fs :: fs[root + p]
  }

  /** `fs.rmSync(at, {recursive: true, force: true})` */
  function Unmount(fs: Fs, at: Path): (r: Fs)
    ensures forall q :: q in r <==> q in fs && !(at <= q)
    ensures forall q :: q in r ==> r[q] == fs[q]
  {
    map q | q in fs && !(at <= q) :: fs[q]
  }

  /** Replaces whatever is at or below `at` by the tree `sub` (`rm -rf at`
      followed by a recursive copy of `sub` to `at`). */
  function Mount(fs: Fs, at: Path, sub: Fs): (r: Fs)
    ensures forall p :: at + p in r <==> p in sub
    ensures forall p :: p in sub ==> r[at + p] == sub[p]
    ensures forall q :: !(at <= q) ==> (q in r <==> q in fs)
    ensures forall q :: !(at <= q) && q in r ==> r[q] == fs[q]
  {
    var targets := set p | p in sub :: at + p;
    var grafted := map q | q in targets && at <= q && q[|at|..] in sub :: sub[q[|at|..]];
    forall p ensures at + p in grafted <==> p in sub {
      assert (at + p)[|at|..] == p;
    }
    forall q | q in grafted ensures at <= q {
    }
    Unmount(fs, at) + grafted
  }

  /** Copying a tree to `at` and reading it back gives the tree. */
  lemma SubtreeMount(fs: Fs, at: Path, sub: Fs)
    ensures Subtree(Mount(fs, at, sub), at) == sub
  {
    var r := Subtree(Mount(fs, at, sub), at);
    assert r.Keys == sub.Keys;
  }

  /** A path below `b + p` cannot lie below `a` when neither of `a`, `b`
      lies below the other. */
  lemma Apart(a: Path, b: Path, p: Path)
    requires !(a <= b) && !(b <= a)
    ensures !(a <= b + p)
  {
  }

  /** Removing one tree leaves a tree apart from it untouched. */
  lemma SubtreeUnmountApart(fs: Fs, a: Path, b: Path)
    requires !(a <= b) && !(b <= a)
    ensures Subtree(Unmount(fs, a), b) == Subtree(fs, b)
  {
    var l := Subtree(Unmount(fs, a), b);
    var r := Subtree(fs, b);
    forall p ensures p in l <==> p in r {
      Apart(a, b, p);
    }
    assert l.Keys == r.Keys;
  }

  lemma Assoc(a: Path, b: Path, p: Path)
    ensures a + (b + p) == (a + b) + p
  {
  }

  /** Re-rooting twice is re-rooting at the joined path. */
  lemma SubtreeSubtree(fs: Fs, a: Path, b: Path)
    ensures Subtree(Subtree(fs, a), b) == Subtree(fs, a + b)
  {
    var mid := Subtree(fs, a);
    var l := Subtree(mid, b);
    var r := Subtree(fs, a + b);
    forall p ensures p in l <==> p in r {
      Assoc(a, b, p);
    }
    assert l.Keys == r.Keys;
    forall p | p in l ensures l[p] == r[p] {
      Assoc(a, b, p);
    }
  }
}


=== FILE: json.dfy ===
/** The JavaScript values that flow through the catalog code: parsed JSON and
    YAML documents and the objects built from them. Objects are ordered
    field lists, because the code reads "the first service" and "the first
    value" of objects. Numbers are integers; floating point is not modelled. */
module Json {
  import opened Wrappers
  import opened Strings

  datatype Value =
    | Undef
    | Null
    | Bool(b: bool)
    | Num(n: int)
    | Str(s: string)
    | Arr(items: seq<Value>)
    | Obj(fields: seq<Field>)

  datatype Field = Field(key: string, val: Value)

  /** JavaScript truthiness (`if (v)`, `!v`, `v || w`, `filter(Boolean)`). */
  predicate Truthy(v: Value) {
    match v
    case Undef => false
    case Null => false
    case Bool(b) => b
    case Num(n) => n != 0
    case Str(s) => s != ""
    case Arr(_) => true
    case Obj(_) => true
  }

  /** `a || b` */
  function Or(a: Value, b: Value): (r: Value)
    ensures Truthy(a) ==> r == a
    ensures !Truthy(a) ==> r == b
  {
    if Truthy(a) then a else b
  }

  /** The keys of an object, in order. */
  function Keys(fields: seq<Field>): (ks: seq<string>)
    ensures |ks| == |fields|
  {
    seq(|fields|, i requires 0 <= i < |fields| => fields[i].key)
  }

  predicate HasKey(fields: seq<Field>, key: string) {
    key in Keys(fields)
  }

  lemma KeysCons(fields: seq<Field>)
    requires fields != []
    ensures Keys(fields) == [fields[0].key] + Keys(fields[1..])
  {
  }

  /** The value stored under `key` (its first occurrence), `undefined` if none. */
  function Get(fields: seq<Field>, key: string): (v: Value)
    ensures !HasKey(fields, key) ==> v == Undef
  {
    if fields == [] then Undef
    else
      KeysCons(fields);
      if fields[0].key == key then fields[0].val
      else Get(fields[1..], key)
  }

  /** Looking a key up in two field lists laid end to end. */
  lemma {:induction false} GetAppend(a: seq<Field>, b: seq<Field>, key: string)
    ensures Get(a + b, key) == if HasKey(a, key) then Get(a, key) else Get(b, key)
  {
    if a == [] {
      assert a + b == b;
    } else {
      KeysCons(a);
      assert (a + b)[1..] == a[1..] + b;
      GetAppend(a[1..], b, key);
    }
  }

  /** The value the last occurrence of `key` carries: what a sequence of
      assignments `o[key] = …` leaves behind. */
  function GetLast(fields: seq<Field>, key: string): Value {
    if fields == [] then Undef
    else if HasKey(fields[1..], key) then GetLast(fields[1..], key)
    else if fields[0].key == key then fields[0].val
    else Undef
  }

  /** Reading `v.key`: a TypeError (`None`) on `null` and `undefined`; other
      non-objects have no such property. */
  function Prop(v: Value, key: string): (r: Option<Value>)
    ensures r.None? <==> (v.Undef? || v.Null?)
    ensures v.Obj? ==> r == Some(Get(v.fields, key))
  {
    match v
    case Undef => None
    case Null => None
    case Obj(fields) => Some(Get(fields, key))
    case _ => Some(Undef)
  }

  /** `String(v)`, as used by template literals. */
  function JsString(v: Value): string
    decreases v
  {
    match v
    case Undef => "undefined"
    case Null => "null"
    case Bool(b) => if b then "true" else "false"
    case Num(n) => IntToString(n)
    case Str(s) => s
    case Arr(items) =>
      JoinComma(seq(|items|, i requires 0 <= i < |items| =>
        if items[i].Undef? || items[i].Null? then "" else JsString(items[i])))
    case Obj(_) => "[object Object]"
  }

  /** `Array.prototype.join` with the default `,` separator. */
  function JoinComma(parts: seq<string>): string {
    if parts == [] then "" else Join(parts, ',')
  }

  /** The own enumerable properties that `{...v}` and `Object.values(v)` see. */
  function OwnEntries(v: Value): seq<Field> {
    match v
    case Obj(fields) => fields
    case Arr(items) => seq(|items|, i requires 0 <= i < |items| => Field(Dec(i), items[i]))
    case Str(s) => seq(|s|, i requires 0 <= i < |s| => Field(Dec(i), Str([s[i]])))
    case _ => []
  }

  /** `o[key] = val`: an existing key keeps its position, a new key goes last. */
  function SetField(fields: seq<Field>, key: string, val: Value): (r: seq<Field>)
    ensures Get(r, key) == val
    ensures forall k :: k != key ==> Get(r, k) == Get(fields, k)
    ensures forall k :: HasKey(r, k) <==> HasKey(fields, k) || k == key
  {
    if fields == [] then
      assert Keys([Field(key, val)]) == [key];
      [Field(key, val)]
    else
      KeysCons(fields);
      if fields[0].key == key then
        var r := [Field(key, val)] + fields[1..];
        KeysCons(r);
        assert r[1..] == fields[1..];
        assert Keys(r) == Keys(fields);
        assert Keys(fields)[0] == key;
        r
      else
        var rest := SetField(fields[1..], key, val);
        var r := [fields[0]] + rest;
        KeysCons(r);
        assert r[1..] == rest;
        forall k ensures HasKey(r, k) <==> HasKey(fields, k) || k == key {
          assert HasKey(r, k) <==> k == fields[0].key || HasKey(rest, k);
          assert HasKey(fields, k) <==> k == fields[0].key || HasKey(fields[1..], k);
        }
        r
  }

  /** The spread `{...o, ...extra}`: each field `(k, v)` of `extra` is defined
      on the copy in order, a repeated key keeping its first position. A
      spread defines properties, so `__proto__` is an ordinary key here
      (`Store` gives plain assignment). */
  function Assign(base: seq<Field>, extra: seq<Field>): (r: seq<Field>)
    ensures forall k :: HasKey(r, k) <==> HasKey(base, k) || HasKey(extra, k)
    decreases |extra|
  {
    if extra == [] then base
    else
      KeysCons(extra);
      Assign(SetField(base, extra[0].key, extra[0].val), extra[1..])
  }

  /** After the assignments, a key `extra` mentions holds its last value
      there, and every other key keeps its old value. */
  lemma {:induction false} AssignGet(base: seq<Field>, extra: seq<Field>, k: string)
    ensures Get(Assign(base, extra), k) == if HasKey(extra, k) then GetLast(extra, k) else Get(base, k)
    decreases |extra|
  {
    if extra != [] {
      KeysCons(extra);
      AssignGet(SetField(base, extra[0].key, extra[0].val), extra[1..], k);
    }
  }

  /** The key whose plain assignment `o[k] = v` runs the accessor that
      `Object.prototype` defines instead of creating an own property. */
  const ProtoKey := "__proto__"

  /** Successive assignments `o[k] = v` onto an object `acc` that has no own
      `__proto__`. Unlike the spread of `Assign`, an assignment to
      `__proto__` creates no own property: the inherited accessor ignores a
      non-object and otherwise replaces the prototype, which the own entries
      do not show. */
  function StoreFrom(acc: seq<Field>, extra: seq<Field>): (r: seq<Field>)
    requires !HasKey(acc, ProtoKey)
    ensures forall k :: HasKey(r, k) <==> HasKey(acc, k) || (k != ProtoKey && HasKey(extra, k))
    decreases |extra|
  {
    if extra == [] then acc
    else
      KeysCons(extra);
      if extra[0].key == ProtoKey then StoreFrom(acc, extra[1..])
      else StoreFrom(SetField(acc, extra[0].key, extra[0].val), extra[1..])
  }

  /** The assignments `o[k] = v` of `extra`, in order, onto a fresh `{}`. */
  function Store(extra: seq<Field>): (r: seq<Field>)
    ensures forall k :: HasKey(r, k) <==> k != ProtoKey && HasKey(extra, k)
  {
    StoreFrom([], extra)
  }

  /** After the assignments, a key `extra` mentions holds its last value
      there, except `__proto__`, and every other key keeps its old value. */
  lemma {:induction false} StoreFromGet(acc: seq<Field>, extra: seq<Field>, k: string)
    requires !HasKey(acc, ProtoKey)
    ensures Get(StoreFrom(acc, extra), k) == if k != ProtoKey && HasKey(extra, k) then GetLast(extra, k) else Get(acc, k)
    decreases |extra|
  {
    if extra != [] {
      KeysCons(extra);
      if extra[0].key == ProtoKey {
        StoreFromGet(acc, extra[1..], k);
      } else {
        StoreFromGet(SetField(acc, extra[0].key, extra[0].val), extra[1..], k);
      }
    }
  }

  /** Assigning onto `{}`: each key but `__proto__` holds the value of its
      last occurrence, and `__proto__` stays absent. */
  lemma StoreGet(extra: seq<Field>, k: string)
    ensures Get(Store(extra), k) == if k != ProtoKey && HasKey(extra, k) then GetLast(extra, k) else Undef
    ensures !HasKey(Store(extra), ProtoKey)
  {
    StoreFromGet([], extra, k);
  }
}

=== FILE: manage_apps.dfy ===
/** The `GET` handler of app/api/manage/apps/route.ts: one record per
    installed application directory, marked valid when a deployment can be
    resolved, with the stored application details spread over it. */
module ManageApps {
  import opened Wrappers
  import opened Json
  import opened FsTree
  import opened Deployments
  import opened Seqs

  const DetailsFile := "app-details.json"

  datatype Response =
    | Unauthorized            // 401
    | AppList(apps: seq<seq<Field>>)
    | ListFailed              // 500, `readdirSync` threw

  /** The details object stored beside the resolved deployment; `{}` when
      there is no deployment, no file, or reading or parsing fails. `parse`
      stands for `JSON.parse`, `None` when it throws. */
  function Details(fs: Fs, deployment: Option<Path>, parse: string -> Option<Value>): (d: seq<Field>)
    ensures deployment.None? ==> d == []
    ensures deployment.Some? && ReadFile(fs, deployment.value + [DetailsFile]).None? ==> d == []
    ensures deployment.Some? && ReadFile(fs, deployment.value + [DetailsFile]).Some? ==>
      var parsed := parse(ReadFile(fs, deployment.value + [DetailsFile]).value);
      && (parsed.None? ==> d == [])
      && (parsed.Some? ==> d == OwnEntries(parsed.value))
  {
    match deployment
    case None => []
    case Some(dir) =>
      if !Exists(fs, dir + [DetailsFile]) then []
      else
        match ReadFile(fs, dir + [DetailsFile])
        case None => []
        case Some(text) =>
          match parse(text)
          case None => []
          case Some(v) => OwnEntries(v)
  }

  /** The record listed for the application directory `name`. */
  function AppRecord(fs: Fs, downloadPath: Path, name: string, parse: string -> Option<Value>): (rec: seq<Field>)
    ensures var base := downloadPath + [name];
            var details := Details(fs, LatestDeployment(fs, base), parse);
            && (!HasKey(details, "valid") ==> Get(rec, "valid") == Bool(LatestDeployment(fs, base).Some?))
            && (!HasKey(details, "name") ==> Get(rec, "name") == Str(name))
            && (!HasKey(details, "path") ==> Get(rec, "path") == Str(PathText(base)))
            && (forall k :: HasKey(details, k) ==> Get(rec, k) == GetLast(details, k))
    ensures var details := Details(fs, LatestDeployment(fs, downloadPath + [name]), parse);
            forall k :: HasKey(rec, k) <==> k == "name" || k == "path" || k == "valid" || HasKey(details, k)
  {
    var base := downloadPath + [name];
    var deployment := LatestDeployment(fs, base);
    var details := Details(fs, deployment, parse);
    var fixed := [Field("name", Str(name)), Field("path", Str(PathText(base))), Field("valid", Bool(deployment.Some?))];
    var rec := Assign(fixed, details);
    assert Keys(fixed) == ["name", "path", "valid"];
    assert Get(fixed, "name") == Str(name);
    assert Get(fixed, "path") == Get(fixed[1..], "path") == Str(PathText(base));
    assert Get(fixed, "valid") == Get(fixed[1..], "valid") == Get(fixed[1..][1..], "valid") == Bool(deployment.Some?);
    AssignGet(fixed, details, "valid");
    AssignGet(fixed, details, "name");
    AssignGet(fixed, details, "path");
    forall k | HasKey(details, k) ensures Get(rec, k) == GetLast(details, k) {
      AssignGet(fixed, details, k);
    }
    rec
  }

  /** `GET /api/manage/apps`. `hasSession` is the session lookup, `debug` the
      `DEBUG` variable and `downloadPath` `SERVER_DOWNLOAD_PATH` (`None` when
      unset or empty). */
  function ListApps(hasSession: bool, debug: Option<string>, downloadPath: Option<Path>, fs: Fs,
                    parse: string -> Option<Value>): (r: Response)
    ensures r.Unauthorized? <==> !hasSession && debug != Some("true")
    ensures !r.Unauthorized? && (downloadPath.None? || !Exists(fs, downloadPath.value)) ==> r == AppList([])
    ensures r.AppList? && downloadPath.Some? && Exists(fs, downloadPath.value) && ReadDir(fs, downloadPath.value).Some? ==>
      var dirs := Filter(ReadDir(fs, downloadPath.value).value, (n: string) => IsDir(fs, downloadPath.value + [n]));
      && |r.apps| == |dirs|
      && forall i :: 0 <= i < |dirs| ==> r.apps[i] == AppRecord(fs, downloadPath.value, dirs[i], parse)
    ensures r.ListFailed? <==> !r.Unauthorized? && downloadPath.Some? && Exists(fs, downloadPath.value)
                               && ReadDir(fs, downloadPath.value).None?
  {
    if !hasSession && debug != Some("true") then Unauthorized
    else if downloadPath.None? || !Exists(fs, downloadPath.value) then AppList([])
    else
      var root := downloadPath.value;
      match ReadDir(fs, root)
      case None => ListFailed
      case Some(entries) =>
        var dirs := Filter(entries, (n: string) => IsDir(fs, root + [n]));
        AppList(seq(|dirs|, i requires 0 <= i < |dirs| => AppRecord(fs, root, dirs[i], parse)))
  }

  /** Every listed record names a directory of the download path, and every
      directory is listed. */
  lemma ListedAreDirectories(hasSession: bool, debug: Option<string>, root: Path, fs: Fs,
                             parse: string -> Option<Value>)
    requires hasSession || debug == Some("true")
    requires IsDir(fs, root)
    ensures var r := ListApps(hasSession, debug, Some(root), fs, parse);
            var dirs := Filter(fs[root].entries, (n: string) => IsDir(fs, root + [n]));
            && r.AppList?
            && (forall n :: n in dirs <==> n in fs[root].entries && IsDir(fs, root + [n]))
            && Subseq(dirs, fs[root].entries)
  {
    FilterSubseq(fs[root].entries, (n: string) => IsDir(fs, root + [n]));
  }
}

=== FILE: processor.dfy ===
/** Source processing and catalog assembly of lib/processor.ts: refreshing a
    source (download, unpack, cache its `Apps` folder, record the outcome)
    and building the catalog from every successfully processed source. The
    network, the archive reader, the clock and the random ids are inputs. */
module Processor {
  import opened Wrappers
  import opened Strings
  import opened Json
  import opened FsTree
  import opened Seqs
  import opened Sources
  import opened Settings
  import opened Catalog

  /** What the archive reader makes of a downloaded ZIP file: either it
      rejects the bytes, or it unpacks a top-level listing and the paths
      below it, possibly stopping with an error part way. */
  datatype Archive =
    | CorruptArchive(message: string)
    | Extracted(top: seq<string>, below: Fs, failure: Option<string>)

  /** The result of `fetch(source.url)`. */
  datatype Fetch =
    | NetworkFailure(message: string)
    | HttpError(statusText: string)
    | Received(archive: Archive)

  const NoAppsFolder := "No \"Apps\" folder found in the ZIP file."

  /** `public/storage/<id>`: the cached `Apps` folder of a ZIP source. */
  function SourceDir(storage: Path, id: string): Path {
    storage + [id]
  }

  /** `public/storage/<id>_temp`: where the archive is unpacked. */
  function TempDir(storage: Path, id: string): Path {
    storage + [id + "_temp"]
  }

  /** Neither cache directory of a source contains the other. */
  lemma DirsApart(storage: Path, id: string)
    ensures !(SourceDir(storage, id) <= TempDir(storage, id))
    ensures !(TempDir(storage, id) <= SourceDir(storage, id))
  {
    var s, t := SourceDir(storage, id), TempDir(storage, id);
    assert s[|storage|] == id && t[|storage|] == id + "_temp";
    assert |id| != |id + "_temp"|;
  }

  /** Where the `Apps` folder of an unpacked archive is looked for: `Apps` at
      the top, else `Apps` inside the first top-level directory (in listing
      order) that has one; `None` when neither exists. */
  function LocateAppsFolder(fs: Fs, temp: Path): (r: Option<Path>)
    ensures Exists(fs, temp + ["Apps"]) ==> r == Some(temp + ["Apps"])
    ensures r.Some? ==> Exists(fs, r.value)
    ensures r.Some? && r.value != temp + ["Apps"] ==>
      var top := ReadDir(fs, temp).GetOr([]);
      exists i :: 0 <= i < |top| && r.value == temp + [top[i], "Apps"] && IsDir(fs, temp + [top[i]])
        && forall j :: 0 <= j < i ==> !(IsDir(fs, temp + [top[j]]) && Exists(fs, temp + [top[j], "Apps"]))
    ensures r.None? ==>
      var top := ReadDir(fs, temp).GetOr([]);
      && !Exists(fs, temp + ["Apps"])
      && forall i :: 0 <= i < |top| ==> !(IsDir(fs, temp + [top[i]]) && Exists(fs, temp + [top[i], "Apps"]))
  {
    if Exists(fs, temp + ["Apps"]) then Some(temp + ["Apps"])
    else
      var top := ReadDir(fs, temp).GetOr([]);
      var found := Find(top, (e: string) => IsDir(fs, temp + [e]) && Exists(fs, temp + [e, "Apps"]));
      if found.Some? then
        assert temp + [found.value, "Apps"] != temp + ["Apps"] by {
          assert |temp + [found.value, "Apps"]| != |temp + ["Apps"]|;
        }
        Some(temp + [found.value, "Apps"])
      else None
  }

  /** Locating the folder inside an unpacked tree gives the same answer as
      locating it in the tree on its own. */
  lemma LocateInSubtree(fs: Fs, temp: Path)
    requires temp in fs && fs[temp].Dir?
    ensures var rel := LocateAppsFolder(Subtree(fs, temp), []);
      && (rel.None? ==> LocateAppsFolder(fs, temp).None?)
      && (rel.Some? ==> LocateAppsFolder(fs, temp) == Some(temp + rel.value))
  {
    var tree := Subtree(fs, temp);
    var a := LocateAppsFolder(tree, []);
    var b := LocateAppsFolder(fs, temp);
    assert [] + ["Apps"] == ["Apps"];
    if Exists(fs, temp + ["Apps"]) {
      assert Exists(tree, ["Apps"]);
      assert a == Some(["Apps"]);
    } else {
      assert !Exists(tree, ["Apps"]);
      assert temp + [] == temp;
      assert ReadDir(tree, []) == ReadDir(fs, temp);
      var top := ReadDir(fs, temp).GetOr([]);
      var p := (e: string) => IsDir(tree, [] + [e]) && Exists(tree, [] + [e, "Apps"]);
      var q := (e: string) => IsDir(fs, temp + [e]) && Exists(fs, temp + [e, "Apps"]);
      forall i | 0 <= i < |top| ensures p(top[i]) == q(top[i]) {
        SubtreeEntry(fs, temp, top[i]);
      }
      FindSameVerdicts(top, p, q);
      var found := Find(top, q);
      assert a == if found.Some? then Some([] + [found.value, "Apps"]) else None;
      assert b == if found.Some? then Some(temp + [found.value, "Apps"]) else None;
      if found.Some? {
        NilConcat([found.value, "Apps"]);
      }
    }
  }

  lemma NilConcat(x: Path)
    ensures [] + x == x
  {
  }

  lemma SubtreeEntry(fs: Fs, temp: Path, e: string)
    ensures IsDir(Subtree(fs, temp), [] + [e]) == IsDir(fs, temp + [e])
    ensures Exists(Subtree(fs, temp), [] + [e, "Apps"]) == Exists(fs, temp + [e, "Apps"])
  {
    assert [] + [e] == [e] && [] + [e, "Apps"] == [e, "Apps"];
  }

  /** The unpacked archive: its top-level listing at the root. */
  function Unpacked(top: seq<string>, below: Fs): (tree: Fs)
    ensures [] in tree && tree[[]] == Dir(top)
  {
    below[[] := Dir(top)]
  }

  /** Removes the old cache, resets the temporary directory and unpacks the
      archive into it. The existence checks in front of the removals are
      subsumed: a forced recursive removal of a missing path changes nothing. */
  function Prepare(fs: Fs, storage: Path, id: string, tree: Fs): (r: Fs)
    ensures forall q :: SourceDir(storage, id) <= q ==> q !in r
    ensures Subtree(r, TempDir(storage, id)) == tree
    ensures forall q :: !(SourceDir(storage, id) <= q) && !(TempDir(storage, id) <= q) ==>
              (q in r <==> q in fs) && (q in fs ==> r[q] == fs[q])
  {
    var src, temp := SourceDir(storage, id), TempDir(storage, id);
    DirsApart(storage, id);
    var prepared := Unmount(Unmount(fs, src), temp)[temp := Dir([])];
    var r := Mount(prepared, temp, tree);
    SubtreeMount(prepared, temp, tree);
    forall q | src <= q ensures q !in r {
      PrefixesApart(storage, id, q);
    }
    r
  }

  /** A path below the cache directory is not below the temporary one. */
  lemma PrefixesApart(storage: Path, id: string, q: Path)
    requires SourceDir(storage, id) <= q
    ensures !(TempDir(storage, id) <= q)
  {
    var src, temp := SourceDir(storage, id), TempDir(storage, id);
    DirsApart(storage, id);
    Apart(temp, src, q[|src|..]);
    assert q == src + q[|src|..];
  }

  /** Copies the located folder to the cache and removes the temporary
      directory. */
  function Install(fs: Fs, storage: Path, id: string, apps: Path): (r: Fs)
    requires TempDir(storage, id) <= apps
    ensures Subtree(r, SourceDir(storage, id)) == Subtree(fs, apps)
    ensures forall q :: TempDir(storage, id) <= q ==> q !in r
    ensures forall q :: !(SourceDir(storage, id) <= q) && !(TempDir(storage, id) <= q) ==>
              (q in r <==> q in fs) && (q in fs ==> r[q] == fs[q])
  {
    var src, temp := SourceDir(storage, id), TempDir(storage, id);
    DirsApart(storage, id);
    var copied := Mount(fs, src, Subtree(fs, apps));
    SubtreeMount(fs, src, Subtree(fs, apps));
    SubtreeUnmountApart(copied, temp, src);
    Unmount(copied, temp)
  }

  /** Storage after a ZIP refresh, and the error it throws, if any. */
  datatype ZipOutcome = ZipOutcome(fs: Fs, error: Option<string>)

  /** The second half of `processZipSource`: locate the `Apps` folder in the
      unpacked `tree`, copy it to the cache and remove the temporary
      directory. A copy of an `Apps` entry that is not a directory fails with
      `copyError`. */
  function CopyApps(unpacked: Fs, storage: Path, id: string, tree: Fs, copyError: string): (r: ZipOutcome)
    requires Subtree(unpacked, TempDir(storage, id)) == tree && [] in tree && tree[[]].Dir?
    requires forall q :: SourceDir(storage, id) <= q ==> q !in unpacked
    ensures var src, temp := SourceDir(storage, id), TempDir(storage, id);
      forall q :: !(src <= q) && !(temp <= q) ==> (q in r.fs <==> q in unpacked) && (q in unpacked ==> r.fs[q] == unpacked[q])
    ensures var rel := LocateAppsFolder(tree, []);
      && (rel.None? ==> r.error == Some(NoAppsFolder))
      && (rel.Some? && !IsDir(tree, rel.value) ==> r.error == Some(copyError))
      && (rel.Some? && IsDir(tree, rel.value) ==> r.error.None? && Subtree(r.fs, SourceDir(storage, id)) == Subtree(tree, rel.value))
    ensures r.error.None? ==> forall q :: TempDir(storage, id) <= q ==> q !in r.fs
    ensures r.error.Some? ==>
      forall q :: SourceDir(storage, id) <= q && q in r.fs ==> q == SourceDir(storage, id) && r.fs[q] == Dir([])
  {
    var src, temp := SourceDir(storage, id), TempDir(storage, id);
    assert temp in unpacked && unpacked[temp].Dir? by {
      assert temp + [] == temp;
    }
    LocateInSubtree(unpacked, temp);
    match LocateAppsFolder(unpacked, temp)
    case None => ZipOutcome(unpacked, Some(NoAppsFolder))
    case Some(apps) =>
      var rel := LocateAppsFolder(tree, []).value;
      assert apps == temp + rel;
      assert IsDir(unpacked, apps) == IsDir(tree, rel);
      if !IsDir(unpacked, apps) then
        DirsApart(storage, id);
        ZipOutcome(unpacked[src := Dir([])], Some(copyError))
      else
        SubtreeSubtree(unpacked, temp, rel);
        ZipOutcome(Install(unpacked, storage, id, apps), None)
  }

  /** `processZipSource` once the download succeeded. */
  function ProcessZip(fs: Fs, storage: Path, id: string, archive: Archive, copyError: string): (r: ZipOutcome)
    ensures archive.CorruptArchive? ==> r == ZipOutcome(fs, Some(archive.message))
    ensures var src, temp := SourceDir(storage, id), TempDir(storage, id);
      forall q :: !(src <= q) && !(temp <= q) ==> (q in r.fs <==> q in fs) && (q in fs ==> r.fs[q] == fs[q])
    ensures archive.Extracted? && archive.failure.Some? ==> r.error == archive.failure
    ensures archive.Extracted? && archive.failure.None? ==>
      var tree := Unpacked(archive.top, archive.below);
      var rel := LocateAppsFolder(tree, []);
      && (rel.None? ==> r.error == Some(NoAppsFolder))
      && (rel.Some? && !IsDir(tree, rel.value) ==> r.error == Some(copyError))
      && (rel.Some? && IsDir(tree, rel.value) ==> r.error.None? && Subtree(r.fs, SourceDir(storage, id)) == Subtree(tree, rel.value))
    ensures r.error.None? ==> forall q :: TempDir(storage, id) <= q ==> q !in r.fs
    ensures archive.Extracted? && r.error.Some? ==>
      forall q :: SourceDir(storage, id) <= q && q in r.fs ==> q == SourceDir(storage, id) && r.fs[q] == Dir([])
  {
    match archive
    case CorruptArchive(message) => ZipOutcome(fs, Some(message))
    case Extracted(top, below, failure) =>
      var tree := Unpacked(top, below);
      var unpacked := Prepare(fs, storage, id, tree);
      if failure.Some? then ZipOutcome(unpacked, failure)
      else CopyApps(unpacked, storage, id, tree, copyError)
  }

  /** The record `processSource` writes back for `source`. */
  function Outcome(source: Source, now: string, error: Option<string>): (s: Source)
    ensures s.id == source.id && s.url == source.url && s.kind == source.kind
    ensures s.name == source.name && s.isYacht == source.isYacht
    ensures s.lastUpdated == Some(now)
    ensures error.None? ==> s.status == Some(Succeeded) && s.error.None?
    ensures error.Some? ==> s.status == Some(Errored) && s.error == error
  {
    source.(lastUpdated := Some(now),
            status := Some(if error.None? then Succeeded else Errored),
            error := error)
  }

  /** The registry and storage after `processSource`, and the error it
      re-throws, if any. */
  datatype Processed = Processed(registry: RegistryFile, fs: Fs, error: Option<string>)

  /** `processSource(source)`, with `now` the time stamp and `fetched` the
      response to `fetch(source.url)`. */
  function ProcessSource(registry: RegistryFile, fs: Fs, storage: Path, source: Source, now: string,
                         fetched: Fetch, copyError: string): (r: Processed)
    ensures r.registry == UpdateSource(registry, Outcome(source, now, r.error))
    ensures source.kind == JsonSource ==> r.fs == fs
    ensures fetched.NetworkFailure? ==> r.fs == fs && r.error == Some(fetched.message)
    ensures fetched.HttpError? ==> r.fs == fs && r.error == Some(
      (if source.kind == ZipSource then "Failed to download ZIP: " else "Failed to fetch JSON: ") + fetched.statusText)
    ensures source.kind == JsonSource && fetched.Received? ==> r.error.None?
    ensures source.kind == ZipSource && fetched.Received? ==>
      var z := ProcessZip(fs, storage, source.id, fetched.archive, copyError);
      r.fs == z.fs && r.error == z.error
  {
    var (newFs, error) :=
      match fetched
      case NetworkFailure(message) => (fs, Some(message))
      case HttpError(statusText) =>
        (fs, Some((if source.kind == ZipSource then "Failed to download ZIP: " else "Failed to fetch JSON: ") + statusText))
      case Received(archive) =>
        if source.kind == ZipSource then
          var z := ProcessZip(fs, storage, source.id, archive, copyError);
          (z.fs, z.error)
        else (fs, None);
    Processed(UpdateSource(registry, Outcome(source, now, error)), newFs, error)
  }

  /** Once processed, a registered source carries the outcome: `success` with
      no error, or `error` with the message that was re-thrown; nothing else
      in the registry changes. */
  lemma ProcessedRecord(registry: RegistryFile, fs: Fs, storage: Path, source: Source, now: string,
                        fetched: Fetch, copyError: string)
    requires exists j :: 0 <= j < |GetSources(registry)| && GetSources(registry)[j].id == source.id
    ensures var r := ProcessSource(registry, fs, storage, source, now, fetched, copyError);
      var before, after := GetSources(registry), GetSources(r.registry);
      && |after| == |before|
      && exists i :: 0 <= i < |before| && before[i].id == source.id
           && after[i].id == source.id && after[i].lastUpdated == Some(now)
           && (r.error.None? ==> after[i].status == Some(Succeeded) && after[i].error.None?)
           && (r.error.Some? ==> after[i].status == Some(Errored) && after[i].error == r.error)
           && forall j :: 0 <= j < |before| && j != i ==> after[j] == before[j]
  {
  }

  // ---------------------------------------------------------------------------
  // getAllApps

  /** A listed name under `sourcePath` is a bundle folder when it is a
      directory holding a compose file. */
  predicate IsBundleFolder(fs: Fs, sourcePath: Path, n: string) {
    IsDir(fs, sourcePath + [n]) && ComposeFileOf(fs, sourcePath + [n]).Some?
  }

  /** The test a listed name passes to be a bundle folder. */
  function KeepFolder(fs: Fs, sourcePath: Path): string -> bool {
    (n: string) => IsBundleFolder(fs, sourcePath, n)
  }

  /** The entry a bundle folder gives. */
  function FolderApp(fs: Fs, sourceId: string, sourcePath: Path): string --> App {
    (n: string) requires IsBundleFolder(fs, sourcePath, n) => BundleApp(fs, sourceId, sourcePath, n).value
  }

  /** The bundle folders among `names`, in listing order. */
  function BundleFolders(fs: Fs, sourcePath: Path, names: seq<string>): seq<string> {
    Filter(names, KeepFolder(fs, sourcePath))
  }

  /** The entries of the bundle folders `names` of a cached ZIP source: one
      per bundle folder, in listing order. */
  function BundleApps(fs: Fs, sourceId: string, sourcePath: Path, names: seq<string>): (r: seq<App>)
    ensures var folders := BundleFolders(fs, sourcePath, names);
      && |r| == |folders| <= |names|
      && forall k :: 0 <= k < |folders| ==>
           IsDir(fs, sourcePath + [folders[k]]) && BundleApp(fs, sourceId, sourcePath, folders[k]) == Some(r[k])
    ensures forall a :: a in r ==> a.sourceId == sourceId && a.composePath.Some? && a.composeContent == Undef
  {
    var folders := BundleFolders(fs, sourcePath, names);
    var r := MapKept(names, KeepFolder(fs, sourcePath), FolderApp(fs, sourceId, sourcePath));
    assert forall k :: 0 <= k < |folders| ==> folders[k] in names && KeepFolder(fs, sourcePath)(folders[k]);
    r
  }

  /** Every folder with a compose file gives its entry. */
  lemma BundleAppsComplete(fs: Fs, sourceId: string, sourcePath: Path, names: seq<string>, i: nat)
    requires i < |names| && IsDir(fs, sourcePath + [names[i]]) && BundleApp(fs, sourceId, sourcePath, names[i]).Some?
    ensures BundleApp(fs, sourceId, sourcePath, names[i]).value in BundleApps(fs, sourceId, sourcePath, names)
  {
    var folders := BundleFolders(fs, sourcePath, names);
    assert KeepFolder(fs, sourcePath)(names[i]);
    var k :| 0 <= k < |folders| && folders[k] == names[i];
  }

  /** Nothing but the entries of bundle folders is listed. */
  lemma BundleAppsSound(fs: Fs, sourceId: string, sourcePath: Path, names: seq<string>, a: App)
    requires a in BundleApps(fs, sourceId, sourcePath, names)
    ensures exists i :: 0 <= i < |names| && IsDir(fs, sourcePath + [names[i]])
                        && BundleApp(fs, sourceId, sourcePath, names[i]) == Some(a)
  {
    var r := BundleApps(fs, sourceId, sourcePath, names);
    var folders := BundleFolders(fs, sourcePath, names);
    var k :| 0 <= k < |r| && r[k] == a;
    assert folders[k] in names;
    var i :| 0 <= i < |names| && names[i] == folders[k];
  }

  /** The catalog entries one source contributes; `None` when listing its
      cache throws, which rejects the whole catalog request. */
  function SourceApps(source: Source, fs: Fs, storage: Path, yacht: map<string, string>,
                      fetched: string -> Option<Value>, dump: Value -> Option<string>,
                      uuid: (string, nat) -> string): (r: Option<seq<App>>)
    ensures source.status != Some(Succeeded) ==> r == Some([])
    ensures r.None? <==> source.status == Some(Succeeded) && source.kind == ZipSource
                         && Exists(fs, SourceDir(storage, source.id)) && !IsDir(fs, SourceDir(storage, source.id))
    ensures source.kind == JsonSource && fetched(source.url).None? ==> r == Some([])
    ensures r.Some? ==> forall a :: a in r.value ==> a.sourceId == source.id
    ensures source.status == Some(Succeeded) && source.kind == ZipSource ==>
      var dir := SourceDir(storage, source.id);
      && (!Exists(fs, dir) ==> r == Some([]))
      && (IsDir(fs, dir) ==> r == Some(BundleApps(fs, source.id, dir, fs[dir].entries)))
    ensures source.status == Some(Succeeded) && source.kind == JsonSource && fetched(source.url).Some? ==>
      var data := fetched(source.url).value;
      && (!data.Arr? ==> r == Some([]))
      && (data.Arr? && source.isYacht == Some(true) ==>
            r == Some(YachtApps(source.id, data.items, yacht, dump).GetOr([])))
      && (data.Arr? && source.isYacht != Some(true) ==>
            r == Some(PlainApps(source.id, data.items, SourceUuids(uuid, source.id)).GetOr([])))
  {
    if source.status != Some(Succeeded) then Some([])
    else if source.kind == ZipSource then
      var sourcePath := SourceDir(storage, source.id);
      if !Exists(fs, sourcePath) then Some([])
      else
        match ReadDir(fs, sourcePath)
        case None => None
        case Some(names) => Some(BundleApps(fs, source.id, sourcePath, names))
    else
      match fetched(source.url)
      case None => Some([])
      case Some(data) =>
        if !data.Arr? then Some([])
        else if source.isYacht == Some(true) then
          var apps := YachtApps(source.id, data.items, yacht, dump);
          assert apps.Some? ==> forall a :: a in apps.value ==> a.sourceId == source.id by {
            if apps.Some? {
              forall a | a in apps.value ensures a.sourceId == source.id {
                var i :| 0 <= i < |apps.value| && apps.value[i] == a;
              }
            }
          }
          Some(apps.GetOr([]))
        else
          var apps := PlainApps(source.id, data.items, SourceUuids(uuid, source.id));
          assert apps.Some? ==> forall a :: a in apps.value ==> a.sourceId == source.id by {
            if apps.Some? {
              forall a | a in apps.value ensures a.sourceId == source.id {
                var i :| 0 <= i < |apps.value| && apps.value[i] == a;
              }
            }
          }
          Some(apps.GetOr([]))
  }

  /** The ids `uuidv4()` generates for the items of source `id`, by position. */
  function SourceUuids(uuid: (string, nat) -> string, id: string): nat -> string {
    (i: nat) => uuid(id, i)
  }

  /** `getAllApps(sources)`: the contributions of the sources, in order. The
      Yacht dictionary comes from the settings file, read once. */
  function GetAllApps(sources: seq<Source>, fs: Fs, storage: Path, settings: SettingsFile,
                      fetched: string -> Option<Value>, dump: Value -> Option<string>,
                      uuid: (string, nat) -> string): (r: Option<seq<App>>)
    ensures r.None? <==> (exists i :: 0 <= i < |sources|
                            && SourceApps(sources[i], fs, storage, GetSettings(settings).yacht, fetched, dump, uuid).None?)
    ensures (r.Some? && sources != []) ==>
      r.value == SourceApps(sources[0], fs, storage, GetSettings(settings).yacht, fetched, dump, uuid).value
                 + GetAllApps(sources[1..], fs, storage, settings, fetched, dump, uuid).value
  {
    if sources == [] then Some([])
    else
      var first := SourceApps(sources[0], fs, storage, GetSettings(settings).yacht, fetched, dump, uuid);
      var rest := GetAllApps(sources[1..], fs, storage, settings, fetched, dump, uuid);
      assert forall i :: 0 < i < |sources| ==> sources[i] == sources[1..][i - 1];
      Combine(first, rest)
  }

  /** Joins two contributions; a rejection rejects the whole. */
  function Combine(a: Option<seq<App>>, b: Option<seq<App>>): (r: Option<seq<App>>)
    ensures r.Some? <==> a.Some? && b.Some?
    ensures r.Some? ==> r.value == a.value + b.value
  {
    if a.None? || b.None? then None else Some(a.value + b.value)
  }

  /** The catalog of two source lists laid end to end joins their catalogs. */
  lemma {:induction false} GetAllAppsAppend(a: seq<Source>, b: seq<Source>, fs: Fs, storage: Path, settings: SettingsFile,
                                            fetched: string -> Option<Value>, dump: Value -> Option<string>,
                                            uuid: (string, nat) -> string)
    ensures GetAllApps(a + b, fs, storage, settings, fetched, dump, uuid)
         == Combine(GetAllApps(a, fs, storage, settings, fetched, dump, uuid), GetAllApps(b, fs, storage, settings, fetched, dump, uuid))
  {
    var gb := GetAllApps(b, fs, storage, settings, fetched, dump, uuid);
    if a == [] {
      assert a + b == b;
      if gb.Some? { assert [] + gb.value == gb.value; }
    } else {
      ConsTail(a, b);
      GetAllAppsAppend(a[1..], b, fs, storage, settings, fetched, dump, uuid);
      var first := SourceApps(a[0], fs, storage, GetSettings(settings).yacht, fetched, dump, uuid);
      var ga' := GetAllApps(a[1..], fs, storage, settings, fetched, dump, uuid);
      if first.Some? && ga'.Some? && gb.Some? {
        assert first.value + (ga'.value + gb.value) == (first.value + ga'.value) + gb.value;
      }
    }
  }

  predicate IsSucceeded(s: Source) {
    s.status == Some(Succeeded)
  }

  /** Sources that were not processed successfully contribute nothing: the
      catalog equals the one built from the successful sources alone. */
  lemma {:induction false} OnlySucceededCount(sources: seq<Source>, fs: Fs, storage: Path, settings: SettingsFile,
                                              fetched: string -> Option<Value>, dump: Value -> Option<string>,
                                              uuid: (string, nat) -> string)
    ensures GetAllApps(sources, fs, storage, settings, fetched, dump, uuid)
         == GetAllApps(Filter(sources, IsSucceeded), fs, storage, settings, fetched, dump, uuid)
  {
    if sources != [] {
      OnlySucceededCount(sources[1..], fs, storage, settings, fetched, dump, uuid);
      var kept := Filter(sources, IsSucceeded);
      var rest := GetAllApps(sources[1..], fs, storage, settings, fetched, dump, uuid);
      if IsSucceeded(sources[0]) {
        assert kept == [sources[0]] + Filter(sources[1..], IsSucceeded);
        ConsTail([sources[0]], Filter(sources[1..], IsSucceeded));
      } else {
        assert kept == Filter(sources[1..], IsSucceeded);
        assert SourceApps(sources[0], fs, storage, GetSettings(settings).yacht, fetched, dump, uuid) == Some([]);
        if rest.Some? {
          assert [] + rest.value == rest.value;
        }
      }
    }
  }

  /** A JSON source whose fetch fails contributes nothing, and the other
      sources are still listed. */
  lemma FailingJsonSourceSkipped(before: seq<Source>, s: Source, after: seq<Source>, fs: Fs, storage: Path,
                                 settings: SettingsFile, fetched: string -> Option<Value>,
                                 dump: Value -> Option<string>, uuid: (string, nat) -> string)
    requires s.kind == JsonSource && fetched(s.url).None?
    ensures GetAllApps(before + [s] + after, fs, storage, settings, fetched, dump, uuid)
         == GetAllApps(before + after, fs, storage, settings, fetched, dump, uuid)
  {
    GetAllAppsAppend(before + [s], after, fs, storage, settings, fetched, dump, uuid);
    GetAllAppsAppend(before, [s], fs, storage, settings, fetched, dump, uuid);
    GetAllAppsAppend(before, after, fs, storage, settings, fetched, dump, uuid);
    var single := GetAllApps([s], fs, storage, settings, fetched, dump, uuid);
    assert [s][1..] == [];
    assert single == Some([]);
    var gb := GetAllApps(before, fs, storage, settings, fetched, dump, uuid);
    if gb.Some? { assert gb.value + [] == gb.value; }
  }
}

=== FILE: seqs.dfy ===
/** Order-preserving filtering of sequences (`Array.prototype.filter`) and the
    subsequence relation it establishes. */
module Seqs {
  import opened Wrappers

  /** `idx` embeds `a` into `b` in order: `a[k]` sits at position `idx[k]` of
      `b`, and the positions strictly increase. */
  ghost predicate Embeds<T>(a: seq<T>, b: seq<T>, idx: seq<nat>) {
    && |idx| == |a|
    && (forall k :: 0 <= k < |idx| ==> idx[k] < |b| && a[k] == b[idx[k]])
    && (forall k, l :: 0 <= k < l < |idx| ==> idx[k] < idx[l])
  }

  /** `a` is obtained from `b` by deleting elements, keeping the order. */
  ghost predicate Subseq<T>(a: seq<T>, b: seq<T>) {
    exists idx :: Embeds(a, b, idx)
  }

  function Filter<T(!new)>(s: seq<T>, keep: T -> bool): (r: seq<T>)
    ensures |r| <= |s|
    ensures forall x :: x in r <==> x in s && keep(x)
  {
    if s == [] then []
    else
      var rest := Filter(s[1..], keep);
      if keep(s[0]) then [s[0]] + rest else rest
  }

  /** Every position moved one place right. */
  function Shift(idx: seq<nat>): (r: seq<nat>)
    ensures |r| == |idx| && forall k :: 0 <= k < |idx| ==> r[k] == idx[k] + 1
  {
    seq(|idx|, k requires 0 <= k < |idx| => idx[k] + 1)
  }

  /** An embedding into the tail of `b` is one into `b`, one place further. */
  lemma EmbedsTail<T>(a: seq<T>, b: seq<T>, idx: seq<nat>)
    requires b != [] && Embeds(a, b[1..], idx)
    ensures Embeds(a, b, Shift(idx))
  {
    forall k | 0 <= k < |idx| ensures a[k] == b[idx[k] + 1] {
      assert a[k] == b[1..][idx[k]];
    }
  }

  /** ... and the head of `b` can be put in front at position 0. */
  lemma EmbedsCons<T>(a: seq<T>, b: seq<T>, idx: seq<nat>)
    requires b != [] && Embeds(a, b[1..], idx)
    ensures Embeds([b[0]] + a, b, [0] + Shift(idx))
  {
    EmbedsTail(a, b, idx);
    var a', idx' := [b[0]] + a, [0] + Shift(idx);
    forall k | 0 < k < |idx'| ensures idx'[k] < |b| && a'[k] == b[idx'[k]] {
      assert idx'[k] == Shift(idx)[k - 1] && a'[k] == a[k - 1];
    }
  }

  /** Filtering keeps the surviving elements in their original order. */
  lemma {:induction false} FilterSubseq<T(!new)>(s: seq<T>, keep: T -> bool)
    ensures Subseq(Filter(s, keep), s)
  {
    if s == [] {
      assert Embeds<T>([], s, []);
    } else {
      FilterSubseq(s[1..], keep);
      var rest := Filter(s[1..], keep);
      var idx :| Embeds(rest, s[1..], idx);
      if keep(s[0]) {
        EmbedsCons(rest, s, idx);
        assert Filter(s, keep) == [s[0]] + rest;
      } else {
        EmbedsTail(rest, s, idx);
      }
    }
  }

  /** When every element is kept, filtering is the identity. */
  lemma {:induction false} FilterKeepsAll<T(!new)>(s: seq<T>, keep: T -> bool)
    requires forall x :: x in s ==> keep(x)
    ensures Filter(s, keep) == s
  {
    if s != [] {
      FilterKeepsAll(s[1..], keep);
      assert s == [s[0]] + s[1..];
    }
  }

  /** `f` applied to the elements of `s` that `keep` accepts, in order: a
      loop that pushes `f(x)` for every accepted `x`. */
  function MapKept<A(!new), B>(s: seq<A>, keep: A -> bool, f: A --> B): (r: seq<B>)
    requires forall i :: 0 <= i < |s| && keep(s[i]) ==> f.requires(s[i])
    ensures |r| == |Filter(s, keep)|
    ensures forall k :: 0 <= k < |r| ==> f.requires(Filter(s, keep)[k]) && r[k] == f(Filter(s, keep)[k])
  {
    if s == [] then []
    else
      assert forall i :: 0 <= i < |s[1..]| ==> s[1..][i] == s[i + 1];
      var rest := MapKept(s[1..], keep, f);
      var tail := Filter(s[1..], keep);
      if keep(s[0]) then
        var r := [f(s[0])] + rest;
        assert Filter(s, keep) == [s[0]] + tail;
        assert forall k :: 0 < k < |r| ==> r[k] == rest[k - 1] && Filter(s, keep)[k] == tail[k - 1];
        r
      else rest
  }

  /** `s.map(f)` where `f` may throw (`None`), the element at position `i`
      being handed `offset + i` as its index: the first throw aborts the
      whole map. */
  function TraverseAt<A, B>(s: seq<A>, f: (nat, A) -> Option<B>, offset: nat): (r: Option<seq<B>>)
    ensures r.Some? <==> forall i :: 0 <= i < |s| ==> f(offset + i, s[i]).Some?
    ensures r.Some? ==> |r.value| == |s| && forall i :: 0 <= i < |s| ==> Some(r.value[i]) == f(offset + i, s[i])
  {
    if s == [] then Some([])
    else
      var first := f(offset, s[0]);
      var rest := TraverseAt(s[1..], f, offset + 1);
      assert forall i :: 0 < i < |s| ==> s[1..][i - 1] == s[i];
      if first.None? || rest.None? then None else Some([first.value] + rest.value)
  }

  /** `s.map(f)` where `f` may throw. */
  function Traverse<A, B>(s: seq<A>, f: A -> Option<B>): (r: Option<seq<B>>)
    ensures r.Some? <==> forall i :: 0 <= i < |s| ==> f(s[i]).Some?
    ensures r.Some? ==> |r.value| == |s| && forall i :: 0 <= i < |s| ==> Some(r.value[i]) == f(s[i])
  {
    TraverseAt(s, (_: nat, x: A) => f(x), 0)
  }

  /** `Array.prototype.find`: the first element satisfying `p`. */
  function Find<T>(s: seq<T>, p: T -> bool): (r: Option<T>)
    ensures r.None? <==> forall i :: 0 <= i < |s| ==> !p(s[i])
    ensures r.Some? ==> exists i :: 0 <= i < |s| && s[i] == r.value && p(s[i])
                                   && forall j :: 0 <= j < i ==> !p(s[j])
  {
    if s == [] then None
    else if p(s[0]) then Some(s[0])
    else
      var r := Find(s[1..], p);
      assert forall i :: 0 < i < |s| ==> s[i] == s[1..][i - 1];
      r
  }

  /** `Find` depends only on the verdicts of its predicate on the elements. */
  lemma {:induction false} FindSameVerdicts<T>(s: seq<T>, p: T -> bool, q: T -> bool)
    requires forall i :: 0 <= i < |s| ==> p(s[i]) == q(s[i])
    ensures Find(s, p) == Find(s, q)
  {
    if s != [] {
      assert forall i :: 0 <= i < |s[1..]| ==> s[1..][i] == s[i + 1];
      FindSameVerdicts(s[1..], p, q);
    }
  }

  lemma ConsTail<T>(a: seq<T>, b: seq<T>)
    requires a != []
    ensures (a + b)[0] == a[0]
    ensures (a + b)[1..] == a[1..] + b
  {
  }

  // ---------------------------------------------------------------------------
  // Stable sorting by a numeric key

  predicate SortedBy<T>(s: seq<T>, key: T -> nat) {
    forall i, j :: 0 <= i < j < |s| ==> key(s[i]) <= key(s[j])
  }

  /** The elements of `s` whose key is `k`, in order. */
  function WithKey<T>(s: seq<T>, key: T -> nat, k: nat): (r: seq<T>)
    ensures forall x :: x in r ==> x in s && key(x) == k
  {
    if s == [] then []
    else if key(s[0]) == k then [s[0]] + WithKey(s[1..], key, k)
    else WithKey(s[1..], key, k)
  }

  /** Places `x` before the first element whose key is at least `key(x)`. */
  function InsertBy<T>(x: T, t: seq<T>, key: T -> nat): (r: seq<T>)
    ensures multiset(r) == multiset(t) + multiset{x}
    ensures |r| == |t| + 1
  {
    if t == [] || key(x) <= key(t[0]) then [x] + t
    else
      assert t == [t[0]] + t[1..];
      [t[0]] + InsertBy(x, t[1..], key)
  }

  /** Inserting into elements whose keys are at least `lo` an element whose
      key is at least `lo` keeps that bound. */
  lemma {:induction false} InsertByAbove<T>(x: T, t: seq<T>, key: T -> nat, lo: nat)
    requires lo <= key(x) && forall i :: 0 <= i < |t| ==> lo <= key(t[i])
    ensures forall i :: 0 <= i < |InsertBy(x, t, key)| ==> lo <= key(InsertBy(x, t, key)[i])
  {
    var r := InsertBy(x, t, key);
    if t == [] || key(x) <= key(t[0]) {
      assert r == [x] + t;
      forall i | 0 < i < |r| ensures lo <= key(r[i]) {
        assert r[i] == t[i - 1];
      }
    } else {
      var rest := InsertBy(x, t[1..], key);
      InsertByAbove(x, t[1..], key, lo);
      assert r == [t[0]] + rest;
      forall i | 0 < i < |r| ensures lo <= key(r[i]) {
        assert r[i] == rest[i - 1];
      }
    }
  }

  lemma {:induction false} InsertBySorted<T>(x: T, t: seq<T>, key: T -> nat)
    requires SortedBy(t, key)
    ensures SortedBy(InsertBy(x, t, key), key)
  {
    var r := InsertBy(x, t, key);
    if t == [] || key(x) <= key(t[0]) {
      forall i, j | 0 <= i < j < |r| ensures key(r[i]) <= key(r[j]) {
        if i == 0 {
          assert r[j] == t[j - 1];
          assert key(t[0]) <= key(t[j - 1]);
        } else {
          assert r[i] == t[i - 1] && r[j] == t[j - 1];
        }
      }
    } else {
      var rest := InsertBy(x, t[1..], key);
      InsertBySorted(x, t[1..], key);
      InsertByAbove(x, t[1..], key, key(t[0]));
      assert r == [t[0]] + rest;
      forall i, j | 0 <= i < j < |r| ensures key(r[i]) <= key(r[j]) {
        if i == 0 {
          assert r[j] == rest[j - 1];
          assert key(t[0]) <= key(rest[j - 1]);
        } else {
          assert r[i] == rest[i - 1] && r[j] == rest[j - 1];
        }
      }
    }
  }

  /** A stable insertion sort by `key`. */
  function SortBy<T>(s: seq<T>, key: T -> nat): (r: seq<T>)
    ensures multiset(r) == multiset(s)
    ensures |r| == |s|
    ensures SortedBy(r, key)
  {
    if s == [] then []
    else
      var r := InsertBy(s[0], SortBy(s[1..], key), key);
      InsertBySorted(s[0], SortBy(s[1..], key), key);
      assert s == [s[0]] + s[1..];
      assert |r| == |multiset(r)|;
      r
  }

  /** Inserting keeps the relative order of elements with equal keys, the
      new one first. */
  lemma {:induction false} InsertByStable<T>(x: T, t: seq<T>, key: T -> nat, k: nat)
    ensures WithKey(InsertBy(x, t, key), key, k)
         == if key(x) == k then [x] + WithKey(t, key, k) else WithKey(t, key, k)
  {
    if t == [] || key(x) <= key(t[0]) {
      assert ([x] + t)[1..] == t;
    } else {
      InsertByStable(x, t[1..], key, k);
      assert ([t[0]] + InsertBy(x, t[1..], key))[1..] == InsertBy(x, t[1..], key);
    }
  }

  /** The sort is stable: elements with the same key keep their order. */
  lemma {:induction false} SortByStable<T>(s: seq<T>, key: T -> nat, k: nat)
    ensures WithKey(SortBy(s, key), key, k) == WithKey(s, key, k)
  {
    if s != [] {
      SortByStable(s[1..], key, k);
      InsertByStable(s[0], SortBy(s[1..], key), key, k);
    }
  }
}


=== FILE: settings.dfy ===
/** The settings store of lib/settings.ts: a JSON file holding the Yacht
    token dictionary and two display options, read back over fixed defaults. */
module Settings {
  import opened Wrappers

  datatype Settings = Settings(
    yacht: map<string, string>,
    disableSaveToServer: bool,
    themeColor: string)

  /** The top-level fields found in a parsed settings file; a field the file
      does not contain is `None`. */
  datatype StoredSettings = StoredSettings(
    yacht: Option<map<string, string>>,
    disableSaveToServer: Option<bool>,
    themeColor: Option<string>)

  /** The settings file: absent, unreadable or unparsable, or parsed. */
  datatype SettingsFile = NoFile | Corrupt | Saved(stored: StoredSettings)

  const DefaultYacht: map<string, string> := map[
    "!PUID" := "1000",
    "!PGID" := "1000",
    "!TZ" := "Etc/UTC",
    "!config" := "./config",
    "!downloads" := "./downloads",
    "!music" := "./music",
    "!movies" := "./movies",
    "!tv" := "./tv",
    "!books" := "./books",
    "!comics" := "./comics",
    "!podcasts" := "./podcasts"]

  const DefaultSettings := Settings(DefaultYacht, false, "zinc")

  /** `getSettings()`: the stored fields override the defaults, and the
      token dictionary is merged key by key over the default tokens. */
  function GetSettings(file: SettingsFile): (r: Settings)
    ensures !file.Saved? ==> r == DefaultSettings
    ensures DefaultYacht.Keys <= r.yacht.Keys
    ensures file.Saved? && file.stored.yacht.Some? ==>
      && r.yacht.Keys == DefaultYacht.Keys + file.stored.yacht.value.Keys
      && forall k :: k in file.stored.yacht.value ==> r.yacht[k] == file.stored.yacht.value[k]
    ensures file.Saved? && file.stored.yacht.None? ==> r.yacht == DefaultYacht
    ensures forall k :: (k in DefaultYacht && !(file.Saved? && file.stored.yacht.Some? && k in file.stored.yacht.value))
                        ==> r.yacht[k] == DefaultYacht[k]
    ensures file.Saved? ==> r.disableSaveToServer == file.stored.disableSaveToServer.GetOr(false)
    ensures file.Saved? ==> r.themeColor == file.stored.themeColor.GetOr("zinc")
  {
    match file
    case Saved(stored) =>
      Settings(
        DefaultYacht + stored.yacht.GetOr(map[]),
        stored.disableSaveToServer.GetOr(DefaultSettings.disableSaveToServer),
        stored.themeColor.GetOr(DefaultSettings.themeColor))
    case _ => DefaultSettings
  }

  /** `saveSettings(body)`: the request body is written as it is. */
  function SaveSettings(body: StoredSettings): SettingsFile {
    Saved(body)
  }

  /** The file `JSON.stringify` writes for a complete settings value. */
  function Serialize(s: Settings): StoredSettings {
    StoredSettings(Some(s.yacht), Some(s.disableSaveToServer), Some(s.themeColor))
  }

  /** Saving complete settings and reading them back gives them laid over the
      defaults, with the dictionary merged key-wise. */
  lemma SaveThenGet(s: Settings)
    ensures GetSettings(SaveSettings(Serialize(s))).yacht.Keys == DefaultYacht.Keys + s.yacht.Keys
    ensures forall k :: k in s.yacht ==> GetSettings(SaveSettings(Serialize(s))).yacht[k] == s.yacht[k]
    ensures GetSettings(SaveSettings(Serialize(s))).disableSaveToServer == s.disableSaveToServer
    ensures GetSettings(SaveSettings(Serialize(s))).themeColor == s.themeColor
  {
  }

  /** A stored file can never remove a default token. */
  lemma DefaultTokensSurvive(file: SettingsFile)
    ensures "!config" in GetSettings(file).yacht && "!PUID" in GetSettings(file).yacht
  {
  }
}

=== FILE: settings_editor.dfy ===
/** The Yacht token editor of app/settings/page.tsx: an ordered list of
    key/value rows, edited in place and reduced to a dictionary on save. */
module SettingsEditor {
  import opened Wrappers
  import opened Settings
  import opened Json

  datatype Entry = Entry(key: string, value: string)

  datatype EntryField = KeyField | ValueField

  predicate HasRowWithKey(es: seq<Entry>, k: string) {
    exists i :: 0 <= i < |es| && es[i].key == k
  }

  /** The `entries.reduce` of `handleSave`: rows are applied in order, a row
      with an empty key is skipped, and a row keyed `__proto__` adds nothing
      (`acc[key] = value` runs the inherited accessor, which ignores a string). */
  function ToYacht(es: seq<Entry>): (m: map<string, string>)
    ensures forall k :: k in m <==> k != "" && k != ProtoKey && HasRowWithKey(es, k)
    decreases |es|
  {
    if es == [] then map[]
    else
      var init := es[..|es| - 1];
      var last := es[|es| - 1];
      var m := ToYacht(init);
      assert forall k :: HasRowWithKey(es, k) <==> HasRowWithKey(init, k) || last.key == k by {
        forall k | HasRowWithKey(es, k) && last.key != k ensures HasRowWithKey(init, k) {
          var i :| 0 <= i < |es| && es[i].key == k;
          assert init[i] == es[i];
        }
        forall k | HasRowWithKey(init, k) ensures HasRowWithKey(es, k) {
          var i :| 0 <= i < |init| && init[i].key == k;
          assert es[i] == init[i];
        }
      }
      if last.key != "" && last.key != ProtoKey then m[last.key := last.value] else m
  }

  /** For a key given by several rows the last row wins. */
  lemma {:induction false} LastRowWins(es: seq<Entry>, i: nat)
    requires i < |es| && es[i].key != "" && es[i].key != ProtoKey
    requires forall j :: i < j < |es| ==> es[j].key != es[i].key
    ensures es[i].key in ToYacht(es) && ToYacht(es)[es[i].key] == es[i].value
    decreases |es|
  {
    if i < |es| - 1 {
      LastRowWins(es[..|es| - 1], i);
    }
  }

  /** The body `handleSave` posts: only the `yacht` field. */
  function SaveBody(es: seq<Entry>): (body: StoredSettings)
    ensures body.disableSaveToServer.None? && body.themeColor.None?
    ensures body.yacht.Some?
    ensures forall k :: k in body.yacht.value <==> k != "" && k != ProtoKey && HasRowWithKey(es, k)
  {
    StoredSettings(Some(ToYacht(es)), None, None)
  }

  /** Saving from the editor overwrites the whole file, so the display
      options read back as their defaults whatever was stored before. */
  lemma EditorSaveResetsOptions(es: seq<Entry>)
    ensures GetSettings(SaveSettings(SaveBody(es))).disableSaveToServer == false
    ensures GetSettings(SaveSettings(SaveBody(es))).themeColor == "zinc"
    ensures GetSettings(SaveSettings(SaveBody(es))).yacht == DefaultYacht + ToYacht(es)
  {
  }

  /** The rows the editor shows for the loaded settings `data`:
      `Object.entries(data.yacht || {})`, one row per own entry, in order,
      its value shown as text. When `data.yacht` cannot be read (`data` is
      `null`) the load fails and the rows stay empty. */
  function LoadEntries(data: Value): (es: seq<Entry>)
    ensures data.Undef? || data.Null? ==> es == []
    ensures !(data.Undef? || data.Null?) && !Truthy(Prop(data, "yacht").value) ==> es == []
    ensures data.Obj? && Get(data.fields, "yacht").Obj? ==>
      var fields := Get(data.fields, "yacht").fields;
      && |es| == |fields|
      && forall i :: 0 <= i < |fields| ==> es[i].key == fields[i].key && es[i].value == JsString(fields[i].val)
  {
    match Prop(data, "yacht")
    case None => []
    case Some(yacht) =>
      var fields := OwnEntries(Or(yacht, Obj([])));
      seq(|fields|, i requires 0 <= i < |fields| => Entry(fields[i].key, JsString(fields[i].val)))
  }

  /** Loading a `yacht` object of text values (whose keys are distinct) and
      saving it unchanged gives back its dictionary, except for an empty key
      and `__proto__`. */
  lemma LoadThenSave(pairs: seq<Field>)
    requires forall i, j :: 0 <= i < j < |pairs| ==> pairs[i].key != pairs[j].key
    requires forall i :: 0 <= i < |pairs| ==> pairs[i].val.Str?
    ensures var saved := SaveBody(LoadEntries(Obj([Field("yacht", Obj(pairs))]))).yacht.value;
      forall i :: 0 <= i < |pairs| && pairs[i].key != "" && pairs[i].key != ProtoKey ==>
        pairs[i].key in saved && saved[pairs[i].key] == pairs[i].val.s
  {
    var data := Obj([Field("yacht", Obj(pairs))]);
    assert Get(data.fields, "yacht") == Obj(pairs);
    var es := LoadEntries(data);
    assert data.Obj? && Get(data.fields, "yacht").Obj?;
    assert |es| == |pairs|;
    forall i | 0 <= i < |pairs| && pairs[i].key != "" && pairs[i].key != ProtoKey
      ensures pairs[i].key in ToYacht(es) && ToYacht(es)[pairs[i].key] == pairs[i].val.s
    {
      assert es[i] == Entry(pairs[i].key, pairs[i].val.s);
      assert forall j :: i < j < |es| ==> es[j].key == pairs[j].key;
      LastRowWins(es, i);
    }
  }

  /** `updateEntry(index, field, val)`; an index with no row throws before
      the state is set, leaving the rows as they were. */
  function UpdateEntry(es: seq<Entry>, index: int, field: EntryField, val: string): (r: seq<Entry>)
    ensures |r| == |es|
    ensures forall j :: 0 <= j < |es| && j != index ==> r[j] == es[j]
    ensures 0 <= index < |es| && field == KeyField ==> r[index] == Entry(val, es[index].value)
    ensures 0 <= index < |es| && field == ValueField ==> r[index] == Entry(es[index].key, val)
  {
    if 0 <= index < |es| then
      es[index := match field
                  case KeyField => es[index].(key := val)
                  case ValueField => es[index].(value := val)]
    else es
  }

  /** `removeEntry(index)`, i.e. `splice(index, 1)`: a negative index counts
      from the end and one before the start removes the first row; an index
      past the end removes nothing. */
  function RemoveEntry(es: seq<Entry>, index: int): (r: seq<Entry>)
    ensures 0 <= index < |es| ==>
      && |r| == |es| - 1
      && (forall j :: 0 <= j < index ==> r[j] == es[j])
      && (forall j :: index <= j < |r| ==> r[j] == es[j + 1])
    ensures -|es| <= index < 0 ==> |r| == |es| - 1 && r == es[..|es| + index] + es[|es| + index + 1..]
    ensures index >= |es| || |es| == 0 ==> r == es
    ensures es != [] && index < -|es| ==> r == es[1..]
  {
    var start := if index < 0 then (if |es| + index < 0 then 0 else |es| + index)
                 else if index > |es| then |es| else index;
    if start < |es| then es[..start] + es[start + 1..] else es
  }

  /** `addEntry()`: one blank row at the end. */
  function AddEntry(es: seq<Entry>): (r: seq<Entry>)
    ensures |r| == |es| + 1 && r[..|es|] == es && r[|es|] == Entry("", "")
  {
    es + [Entry("", "")]
  }

  /** A blank row never reaches the saved dictionary. */
  lemma AddEntryInvisible(es: seq<Entry>)
    ensures ToYacht(AddEntry(es)) == ToYacht(es)
  {
    assert AddEntry(es)[..|es|] == es;
  }
}

=== FILE: sources.dfy ===
/** The source registry of lib/sources.ts: an ordered list of catalog
    sources persisted as one JSON file and rewritten whole on every change. */
module Sources {
  import opened Wrappers
  import opened Seqs

  datatype SourceType = JsonSource | ZipSource

  datatype Status = Pending | Succeeded | Errored

  /** A registered catalog origin; the optional fields are the `?:` fields of
      the TypeScript interface. */
  datatype Source = Source(
    id: string,
    url: string,
    kind: SourceType,
    name: Option<string>,
    isYacht: Option<bool>,
    lastUpdated: Option<string>,
    status: Option<Status>,
    error: Option<string>)

  /** The registry file: absent, unreadable or unparsable, or a stored list. */
  datatype RegistryFile = Missing | Corrupt | Stored(sources: seq<Source>)

  const DuplicateUrl := "Source with this URL already exists"

  function Urls(list: seq<Source>): (us: seq<string>)
    ensures |us| == |list|
  {
    seq(|list|, i requires 0 <= i < |list| => list[i].url)
  }

  /** No two registered sources share a URL. */
  predicate UrlsUnique(list: seq<Source>) {
    forall i, j :: 0 <= i < j < |list| ==> list[i].url != list[j].url
  }

  /** `getSources()` */
  function GetSources(file: RegistryFile): seq<Source> {
    if file.Stored? then file.sources else []
  }

  /** `addSource(s)`: a failure writes nothing; success writes the list with
      `s` appended. */
  function AddSource(file: RegistryFile, s: Source): (r: Result<RegistryFile, string>)
    ensures r.Failure? <==> exists i :: 0 <= i < |GetSources(file)| && GetSources(file)[i].url == s.url
    ensures r.Failure? ==> r.error == DuplicateUrl
    ensures r.Success? ==> |GetSources(r.value)| == |GetSources(file)| + 1
    ensures r.Success? ==> GetSources(r.value)[..|GetSources(file)|] == GetSources(file)
    ensures r.Success? ==> GetSources(r.value)[|GetSources(file)|] == s
    ensures r.Success? && UrlsUnique(GetSources(file)) ==> UrlsUnique(GetSources(r.value))
  {
    var list := GetSources(file);
    assert forall i :: 0 <= i < |list| ==> Urls(list)[i] == list[i].url;
    if s.url in Urls(list) then Failure(DuplicateUrl)
    else Success(Stored(list + [s]))
  }

  /** `sources.findIndex(s => s.id === id)`, with `None` for `-1`. */
  function FindIndex(list: seq<Source>, id: string): (r: Option<nat>)
    ensures r.Some? ==> r.value < |list| && list[r.value].id == id
    ensures r.Some? ==> forall j :: 0 <= j < r.value ==> list[j].id != id
    ensures r.None? ==> forall j :: 0 <= j < |list| ==> list[j].id != id
  {
    if list == [] then None
    else if list[0].id == id then Some(0)
    else
      match FindIndex(list[1..], id)
      case None => None
      case Some(k) => Some(k + 1)
  }

  /** `updateSource(s)`: the first source with the same id is replaced and the
      list written back; an unknown id leaves the file untouched. */
  function UpdateSource(file: RegistryFile, s: Source): (r: RegistryFile)
    ensures (forall j :: 0 <= j < |GetSources(file)| ==> GetSources(file)[j].id != s.id) ==> r == file
    ensures (exists j :: 0 <= j < |GetSources(file)| && GetSources(file)[j].id == s.id) ==>
      var old_ := GetSources(file);
      var new_ := GetSources(r);
      && |new_| == |old_|
      && (exists i :: 0 <= i < |old_| && old_[i].id == s.id
           && (forall j :: 0 <= j < i ==> old_[j].id != s.id)
           && new_[i] == s
           && (forall j :: 0 <= j < |old_| && j != i ==> new_[j] == old_[j]))
  {
    var list := GetSources(file);
    match FindIndex(list, s.id)
    case None => file
    case Some(i) => Stored(list[i := s])
  }

  /** `removeSource(id)`: keeps, in order, exactly the sources with another
      id; the list is always written back. */
  function RemoveSource(file: RegistryFile, id: string): (r: RegistryFile)
    ensures r.Stored?
    ensures forall x :: x in GetSources(r) <==> x in GetSources(file) && x.id != id
  {
    Stored(Filter(GetSources(file), (x: Source) => x.id != id))
  }

  /** Removal keeps the relative order of the remaining sources. */
  lemma RemoveKeepsOrder(file: RegistryFile, id: string)
    ensures Subseq(GetSources(RemoveSource(file, id)), GetSources(file))
  {
    FilterSubseq(GetSources(file), (x: Source) => x.id != id);
  }

  /** Removing an id nobody has rewrites the same list. */
  lemma RemoveAbsent(file: RegistryFile, id: string)
    requires forall j :: 0 <= j < |GetSources(file)| ==> GetSources(file)[j].id != id
    ensures GetSources(RemoveSource(file, id)) == GetSources(file)
  {
    FilterKeepsAll(GetSources(file), (x: Source) => x.id != id);
  }

  /** Removal cannot create a duplicate URL. */
  lemma RemoveKeepsUnique(file: RegistryFile, id: string)
    requires UrlsUnique(GetSources(file))
    ensures UrlsUnique(GetSources(RemoveSource(file, id)))
  {
    var before := GetSources(file);
    var after := GetSources(RemoveSource(file, id));
    FilterSubseq(before, (x: Source) => x.id != id);
    var idx :| Embeds(after, before, idx);
    forall i, j | 0 <= i < j < |after| ensures after[i].url != after[j].url {
      assert after[i] == before[idx[i]] && after[j] == before[idx[j]];
    }
  }

  /** Replacing a source by a record with the same URL keeps URLs unique;
      this is how processing updates a source. */
  lemma UpdateKeepsUnique(file: RegistryFile, s: Source)
    requires UrlsUnique(GetSources(file))
    requires forall j :: 0 <= j < |GetSources(file)| && GetSources(file)[j].id == s.id ==> GetSources(file)[j].url == s.url
    ensures UrlsUnique(GetSources(UpdateSource(file, s)))
  {
  }
}

=== FILE: sources_route.dfy ===
/** The POST and DELETE handlers of app/api/sources/route.ts: registering a
    catalog source (then processing it at once) and unregistering one. */
module SourcesRoute {
  import opened Wrappers
  import opened Strings
  import opened Json
  import opened FsTree
  import opened Sources
  import opened Processor

  /** The response of `POST /api/sources`. */
  datatype PostResponse =
    | Registered(source: Source)      // 200: processing succeeded; the source as first stored
    | RegisteredWithError(source: Source) // 201: processing failed; the source is still registered
    | UrlRequired                     // 400
    | InternalError                   // 500

  datatype PostResult = PostResult(response: PostResponse, registry: RegistryFile, fs: Fs)

  /** `url.endsWith('.zip') ? 'zip' : 'json'` */
  function KindOf(url: string): (k: SourceType)
    ensures k == ZipSource <==> EndsWith(url, ".zip")
  {
    if EndsWith(url, ".zip") then ZipSource else JsonSource
  }

  /** The record built from the request: a fresh `id`, the submitted URL and
      flag, status `pending` and the current time. */
  function NewSource(id: string, url: string, isYacht: Value, now: string): Source {
    Source(id, url, KindOf(url), None, Some(Truthy(isYacht)), Some(now), Some(Pending), None)
  }

  /** `POST(request)`: `body` is the parsed request body (`None` when it is not
      JSON), `id` the generated uuid, `now` the time stamp of the new record,
      `processedAt` the one processing stamps, and `fetched` the response
      processing gets for the URL. */
  function Post(registry: RegistryFile, fs: Fs, storage: Path, body: Option<Value>, id: string, now: string,
                processedAt: string, fetched: Fetch, copyError: string): (r: PostResult)
    ensures body.None? || body.value.Undef? || body.value.Null? ==> r == PostResult(InternalError, registry, fs)
    ensures body.Some? && !(body.value.Undef? || body.value.Null?) && !Truthy(Prop(body.value, "url").value)
            ==> r == PostResult(UrlRequired, registry, fs)
    ensures body.Some? && !(body.value.Undef? || body.value.Null?) && Truthy(Prop(body.value, "url").value) ==>
              (!Prop(body.value, "url").value.Str? ==> r == PostResult(InternalError, registry, fs))
    ensures r.response.UrlRequired? || r.response.InternalError? ==> r.registry == registry && r.fs == fs
  {
    match body
    case None => PostResult(InternalError, registry, fs)
    case Some(b) =>
      match Prop(b, "url")
      case None => PostResult(InternalError, registry, fs)
      case Some(urlV) =>
        if !Truthy(urlV) then PostResult(UrlRequired, registry, fs)
        else if !urlV.Str? then PostResult(InternalError, registry, fs)
        else
          Register(registry, fs, storage, NewSource(id, urlV.s, Prop(b, "isYacht").value, now), processedAt, fetched, copyError)
  }

  /** `addSource(newSource)` followed by `processSource(newSource)`. */
  function Register(registry: RegistryFile, fs: Fs, storage: Path, s: Source, processedAt: string,
                    fetched: Fetch, copyError: string): (r: PostResult)
    ensures r.response.InternalError? ==> r.registry == registry && r.fs == fs
    ensures !r.response.UrlRequired?
  {
    match AddSource(registry, s)
    case Failure(_) => PostResult(InternalError, registry, fs)
    case Success(added) =>
      var p := ProcessSource(added, fs, storage, s, processedAt, fetched, copyError);
      if p.error.None? then PostResult(Registered(s), p.registry, p.fs)
      else PostResult(RegisteredWithError(s.(status := Some(Errored), error := p.error)), p.registry, p.fs)
  }

  /** The body `{ url, isYacht, ... }`. */
  function Body(url: string, isYacht: Value, rest: seq<Field>): Value {
    Obj([Field("url", Str(url)), Field("isYacht", isYacht)] + rest)
  }

  /** Destructuring `{ url, isYacht }` from such a body. */
  lemma BodyProps(url: string, isYacht: Value, rest: seq<Field>)
    ensures Prop(Body(url, isYacht, rest), "url") == Some(Str(url))
    ensures Prop(Body(url, isYacht, rest), "isYacht") == Some(isYacht)
  {
    var fields := [Field("url", Str(url)), Field("isYacht", isYacht)] + rest;
    assert fields[1..][0] == Field("isYacht", isYacht);
    assert Get(fields, "isYacht") == Get(fields[1..], "isYacht") == isYacht;
  }

  /** The outcome of registering `s` whose id is new: a known URL is an
      internal error that changes nothing; otherwise `s` is appended and the
      stored record carries the processing outcome. */
  lemma RegisterRecords(registry: RegistryFile, fs: Fs, storage: Path, s: Source, processedAt: string,
                        fetched: Fetch, copyError: string)
    requires forall j :: 0 <= j < |GetSources(registry)| ==> GetSources(registry)[j].id != s.id
    ensures var r := Register(registry, fs, storage, s, processedAt, fetched, copyError);
      var before := GetSources(registry);
      var after := GetSources(r.registry);
      var duplicate := exists i :: 0 <= i < |before| && before[i].url == s.url;
      && (duplicate ==> r == PostResult(InternalError, registry, fs))
      && (!duplicate ==>
            && (r.response.Registered? || r.response.RegisteredWithError?)
            && |after| == |before| + 1 && after[..|before|] == before
            && after[|before|] == Outcome(s, processedAt, after[|before|].error)
            && (r.response.Registered? ==> r.response.source == s && after[|before|].status == Some(Succeeded))
            && (r.response.RegisteredWithError? ==>
                  && r.response.source == s.(status := Some(Errored), error := after[|before|].error)
                  && after[|before|].status == Some(Errored)))
  {
    var before := GetSources(registry);
    var added := AddSource(registry, s);
    if added.Success? {
      var list := GetSources(added.value);
      ProcessedRecord(added.value, fs, storage, s, processedAt, fetched, copyError);
      var p := ProcessSource(added.value, fs, storage, s, processedAt, fetched, copyError);
      var after := GetSources(p.registry);
      var i :| 0 <= i < |list| && list[i].id == s.id && after[i].id == s.id
               && (p.error.None? ==> after[i].status == Some(Succeeded) && after[i].error.None?)
               && (p.error.Some? ==> after[i].status == Some(Errored) && after[i].error == p.error)
               && forall j :: 0 <= j < |list| && j != i ==> after[j] == list[j];
      NewIdLast(before, list, s.id, i);
      UpdateAt(added.value, Outcome(s, processedAt, p.error), i);
      assert after[..|before|] == before;
    }
  }

  /** A source found by id among `before + [last]`, when `before` lacks the
      id, is the last one. */
  lemma NewIdLast(before: seq<Source>, list: seq<Source>, id: string, i: nat)
    requires |list| == |before| + 1 && list[..|before|] == before
    requires forall j :: 0 <= j < |before| ==> before[j].id != id
    requires i < |list| && list[i].id == id
    ensures i == |before|
  {
    forall j | 0 <= j < |before| ensures list[j].id != id {
      assert list[j] == list[..|before|][j];
    }
  }

  /** `updateSource` stores the record at the index of its id. */
  lemma UpdateAt(file: RegistryFile, s: Source, i: nat)
    requires i < |GetSources(file)| && GetSources(file)[i].id == s.id
    requires forall j :: 0 <= j < i ==> GetSources(file)[j].id != s.id
    ensures GetSources(UpdateSource(file, s))[i] == s
  {
  }

  /** A `POST` with a new URL registers it for good: the source is appended
      after the existing ones, its type follows the URL suffix, its flag is
      the truthiness of `isYacht`, and the stored record carries the
      processing outcome, which the response reports as 200 (the pending
      record) or 201 (the record with the error). A URL already registered is
      an internal error that changes nothing. The uuid is required to be new. */
  lemma PostRegisters(registry: RegistryFile, fs: Fs, storage: Path, url: string, isYacht: Value, rest: seq<Field>,
                      id: string, now: string, processedAt: string, fetched: Fetch, copyError: string)
    requires url != ""
    requires forall j :: 0 <= j < |GetSources(registry)| ==> GetSources(registry)[j].id != id
    ensures var r := Post(registry, fs, storage, Some(Body(url, isYacht, rest)), id, now, processedAt, fetched, copyError);
      var before := GetSources(registry);
      var after := GetSources(r.registry);
      var duplicate := exists i :: 0 <= i < |before| && before[i].url == url;
      && (duplicate ==> r == PostResult(InternalError, registry, fs))
      && (!duplicate ==>
            && (r.response.Registered? || r.response.RegisteredWithError?)
            && |after| == |before| + 1 && after[..|before|] == before
            && after[|before|].id == id && after[|before|].url == url
            && (after[|before|].kind == ZipSource <==> EndsWith(url, ".zip"))
            && after[|before|].isYacht == Some(Truthy(isYacht))
            && after[|before|].lastUpdated == Some(processedAt)
            && r.response.source.id == id && r.response.source.lastUpdated == Some(now)
            && (r.response.Registered? ==> after[|before|].status == Some(Succeeded)
                                           && r.response.source.status == Some(Pending))
            && (r.response.RegisteredWithError? ==> after[|before|].status == Some(Errored)
                                                    && r.response.source.status == Some(Errored)
                                                    && r.response.source.error == after[|before|].error))
  {
    BodyProps(url, isYacht, rest);
    var s := NewSource(id, url, isYacht, now);
    assert Post(registry, fs, storage, Some(Body(url, isYacht, rest)), id, now, processedAt, fetched, copyError)
        == Register(registry, fs, storage, s, processedAt, fetched, copyError);
    RegisterRecords(registry, fs, storage, s, processedAt, fetched, copyError);
  }

  /** The response of `DELETE /api/sources?id=…`. */
  datatype DeleteResponse = IdRequired | Deleted

  /** `DELETE(request)` with `id` the `id` query parameter (`None` when absent). */
  function Delete(registry: RegistryFile, id: Option<string>): (r: (DeleteResponse, RegistryFile))
    ensures id.None? || id == Some("") ==> r == (IdRequired, registry)
    ensures id.Some? && id.value != "" ==>
              && r.0 == Deleted
              && (forall x :: x in GetSources(r.1) <==> x in GetSources(registry) && x.id != id.value)
  {
    if id.None? || id.value == "" then (IdRequired, registry)
    else (Deleted, RemoveSource(registry, id.value))
  }
}

=== FILE: store_view.dfy ===
/** The two pure helpers of the store page (components/store-interface.tsx):
    the search-and-source filter over the catalog and the label shown for a
    source. */
module StoreView {
  import opened Wrappers
  import opened Strings
  import opened Json
  import opened Seqs
  import opened Sources
  import opened Catalog

  /** The value of the source selector that shows every source. */
  const AllSources := "all"

  /** `matchesSearch` for one app: the name, or else a truthy description,
      contains the search text, case-insensitively. `None` is the TypeError
      thrown by `toLowerCase` on a name that is not a string, or on a truthy
      description that is not one. */
  function MatchesSearch(app: App, search: string): (r: Option<bool>)
    ensures r.None? <==>
      !app.name.Str?
      || (!Contains(Lower(app.name.s), Lower(search)) && Truthy(app.description) && !app.description.Str?)
    ensures r == Some(true) <==>
      && app.name.Str?
      && (|| Contains(Lower(app.name.s), Lower(search))
          || (app.description.Str? && app.description.s != "" && Contains(Lower(app.description.s), Lower(search))))
  {
    if !app.name.Str? then None
    else if Contains(Lower(app.name.s), Lower(search)) then Some(true)
    else if !Truthy(app.description) then Some(false)
    else if !app.description.Str? then None
    else Some(Contains(Lower(app.description.s), Lower(search)))
  }

  /** Whether the filter keeps `app`: it matches the search and comes from the
      selected source, or every source is selected. */
  predicate Keep(app: App, search: string, selected: string) {
    MatchesSearch(app, search) == Some(true) && (selected == AllSources || app.sourceId == selected)
  }

  /** `filteredApps`: `None` when the predicate throws on some app, which
      aborts the render. */
  function FilterApps(apps: seq<App>, search: string, selected: string): (r: Option<seq<App>>)
    ensures r.None? <==> exists i :: 0 <= i < |apps| && MatchesSearch(apps[i], search).None?
    ensures r.Some? ==> r.value == Filter(apps, (a: App) => Keep(a, search, selected))
  {
    if apps == [] then Some([])
    else
      assert forall i :: 0 < i < |apps| ==> apps[1..][i - 1] == apps[i];
      match MatchesSearch(apps[0], search)
      case None => None
      case Some(m) =>
        match FilterApps(apps[1..], search, selected)
        case None => None
        case Some(rest) =>
          Some(if m && (selected == AllSources || apps[0].sourceId == selected) then [apps[0]] + rest else rest)
  }

  /** The filtered list keeps exactly the apps the predicate accepts, in their
      catalog order. */
  lemma FilterAppsOrder(apps: seq<App>, search: string, selected: string)
    requires FilterApps(apps, search, selected).Some?
    ensures var kept := FilterApps(apps, search, selected).value;
      && Subseq(kept, apps)
      && forall a :: a in kept <==> a in apps && Keep(a, search, selected)
  {
    FilterSubseq(apps, (a: App) => Keep(a, search, selected));
  }

  /** With an empty search box and every source selected, the whole catalog
      is shown, provided every app has a string name. */
  lemma EmptySearchKeepsAll(apps: seq<App>)
    requires forall i :: 0 <= i < |apps| ==> apps[i].name.Str?
    ensures FilterApps(apps, "", AllSources) == Some(apps)
  {
    forall i | 0 <= i < |apps| ensures Keep(apps[i], "", AllSources) {
      assert Lower("") == "";
      assert Contains(Lower(apps[i].name.s), "");
    }
    FilterKeepsAll(apps, (a: App) => Keep(a, "", AllSources));
  }

  /** `getSourceName(source)`: `hostname` is the host `new URL(source.url)`
      parses, `None` when the constructor throws. */
  function GetSourceName(source: Source, hostname: Option<string>): (r: string)
    ensures source.name.Some? && source.name.value != "" ==> r == source.name.value
    ensures (source.name.None? || source.name.value == "") ==>
      && (hostname.None? ==> r == source.url)
      && (hostname.Some? && source.kind == JsonSource ==> r == hostname.value)
      && (hostname.Some? && source.kind == ZipSource ==>
            && '/' !in r && EndsWith(source.url, r)
            && (r == source.url || source.url[|source.url| - |r| - 1] == '/'))
  {
    if source.name.Some? && source.name.value != "" then source.name.value
    else if hostname.None? then source.url
    else if source.kind == ZipSource then
      var parts := Split(source.url, '/');
      LastPiece(source.url, '/');
      parts[|parts| - 1]
    else hostname.value
  }

  /** A ZIP source without a name is labelled with the text after the last
      `/` of its URL. */
  lemma ZipSourceName(source: Source, hostname: string, x: string, file: string)
    requires source.name.None? || source.name.value == ""
    requires source.kind == ZipSource && source.url == x + "/" + file && '/' !in file
    ensures GetSourceName(source, Some(hostname)) == file
  {
    LastPieceOf(x, '/', file);
  }
}

=== FILE: strings.dfy ===
/** String operations of the JavaScript runtime that the repository relies
    on: prefix/suffix/substring tests, ASCII lower-casing, `split` on one
    character, decimal rendering of integers, `parseInt(s, 10)` and the
    default ordering `Array.prototype.sort` uses for strings. */
module Strings {
  import opened Wrappers

  predicate StartsWith(s: string, prefix: string) {
    prefix <= s
  }

  predicate EndsWith(s: string, suffix: string) {
    |suffix| <= |s| && s[|s| - |suffix|..] == suffix
  }

  /** `s.includes(sub)`: `sub` occurs at some position of `s`. */
  predicate Contains(s: string, sub: string)
    decreases |s|
  {
    sub <= s || (|s| > 0 && Contains(s[1..], sub))
  }

  /** `toLowerCase`, restricted to the ASCII letters. */
  function LowerChar(c: char): char {
    if 'A' <= c <= 'Z' then (c as int + 32) as char else c
  }

  function Lower(s: string): (r: string)
    ensures |r| == |s|
  {
    seq(|s|, i requires 0 <= i < |s| => LowerChar(s[i]))
  }

  /** Text without upper-case ASCII letters is its own lower case. */
  lemma LowerNoUpper(s: string)
    requires forall i :: 0 <= i < |s| ==> !('A' <= s[i] <= 'Z')
    ensures Lower(s) == s
  {
  }

  // ---------------------------------------------------------------------------
  // split / join on a single separator character

  function IndexOf(s: string, c: char): (i: nat)
    requires c in s
    ensures i < |s| && s[i] == c && c !in s[..i]
  {
    if s[0] == c then 0
    else
      var j := IndexOf(s[1..], c);
      assert s[..j + 1] == [s[0]] + s[1..][..j];
      j + 1
  }

  /** `s.split(sep)` for a one-character separator: never empty, and no piece
      contains the separator. */
  function Split(s: string, sep: char): (parts: seq<string>)
    ensures |parts| >= 1
    ensures forall k :: 0 <= k < |parts| ==> sep !in parts[k]
    decreases |s|
  {
    if sep !in s then [s]
    else
      var i := IndexOf(s, sep);
      [s[..i]] + Split(s[i + 1..], sep)
  }

  function Join(parts: seq<string>, sep: char): string
    requires |parts| >= 1
  {
    if |parts| == 1 then parts[0] else parts[0] + [sep] + Join(parts[1..], sep)
  }

  /** Splitting loses nothing: joining the pieces restores the string. */
  lemma {:induction false} JoinSplit(s: string, sep: char)
    ensures Join(Split(s, sep), sep) == s
    decreases |s|
  {
    if sep in s {
      var i := IndexOf(s, sep);
      var tail := Split(s[i + 1..], sep);
      var parts := Split(s, sep);
      assert parts == [s[..i]] + tail;
      assert parts[1..] == tail;
      JoinSplit(s[i + 1..], sep);
      assert Join(parts, sep) == s[..i] + [sep] + Join(tail, sep);
      assert s == s[..i] + [sep] + s[i + 1..];
    }
  }

  /** A piece free of the separator is split off intact. */
  lemma SplitCons(x: string, sep: char, y: string)
    requires sep !in x
    ensures Split(x + [sep] + y, sep) == [x] + Split(y, sep)
  {
    var s := x + [sep] + y;
    assert s[|x|] == sep;
    var i := IndexOf(s, sep);
    assert s[..|x|] == x;
    assert i == |x|;
    assert s[..i] == x;
    assert s[i + 1..] == y;
  }

  /** Three separator-free pieces joined by `sep` split back apart. */
  lemma SplitThree(a: string, b: string, c: string, sep: char)
    requires sep !in a && sep !in b && sep !in c
    ensures Split(a + [sep] + (b + [sep] + c), sep) == [a, b, c]
  {
    SplitCons(b, sep, c);
    assert Split(c, sep) == [c];
    SplitCons(a, sep, b + [sep] + c);
  }

  /** Joining separator-free pieces and splitting again gives the pieces back. */
  lemma {:induction false} SplitJoin(parts: seq<string>, sep: char)
    requires |parts| >= 1
    requires forall k :: 0 <= k < |parts| ==> sep !in parts[k]
    ensures Split(Join(parts, sep), sep) == parts
    decreases |parts|
  {
    if |parts| > 1 {
      SplitJoin(parts[1..], sep);
      SplitCons(parts[0], sep, Join(parts[1..], sep));
      assert parts == [parts[0]] + parts[1..];
    }
  }

  /** The joined text ends with the last piece, right after a separator
      when there are several pieces. */
  lemma {:induction false} JoinEndsWithLast(parts: seq<string>, sep: char)
    requires |parts| >= 1
    ensures var s, last := Join(parts, sep), parts[|parts| - 1];
      && EndsWith(s, last)
      && (|parts| > 1 ==> |last| < |s| && s[|s| - |last| - 1] == sep)
    decreases |parts|
  {
    if |parts| > 1 {
      JoinEndsWithLast(parts[1..], sep);
      var rest := Join(parts[1..], sep);
      var s := parts[0] + [sep] + rest;
      var last := parts[|parts| - 1];
      assert s[|s| - |rest|..] == rest;
      if |parts[1..]| == 1 {
        assert rest == last;
        assert s[|s| - |last| - 1] == sep;
      } else {
        assert s[|s| - |last| - 1] == rest[|rest| - |last| - 1];
      }
    }
  }

  /** The last piece of `s.split(sep)` is the text after the last separator:
      the separator-free suffix that is all of `s` or follows a separator. */
  lemma LastPiece(s: string, sep: char)
    ensures var parts := Split(s, sep);
      var last := parts[|parts| - 1];
      && sep !in last && EndsWith(s, last)
      && (last == s || s[|s| - |last| - 1] == sep)
  {
    var parts := Split(s, sep);
    var last := parts[|parts| - 1];
    JoinSplit(s, sep);
    assert Join(parts, sep) == s;
    JoinEndsWithLast(parts, sep);
    assert sep !in last;
    if |parts| == 1 {
      assert Join(parts, sep) == parts[0];
    }
  }

  /** In `x + sep + y` with a separator-free `y`, the last piece is `y`. */
  lemma LastPieceOf(x: string, sep: char, y: string)
    requires sep !in y
    ensures var parts := Split(x + [sep] + y, sep); parts[|parts| - 1] == y
  {
    var s := x + [sep] + y;
    LastPiece(s, sep);
    var parts := Split(s, sep);
    SuffixAfterSeparator(s, parts[|parts| - 1], x, y, sep);
  }

  /** The only separator-free suffix of `x + sep + y` that is the whole text
      or follows a separator is `y`. */
  lemma SuffixAfterSeparator(s: string, last: string, x: string, y: string, sep: char)
    requires s == x + [sep] + y && sep !in y
    requires sep !in last && EndsWith(s, last) && (last == s || s[|s| - |last| - 1] == sep)
    ensures last == y
  {
    var k := |s| - |last|;
    assert last == s[k..];
    assert s[|x|] == sep;
    // a suffix starting at or before the separator contains it
    forall j | 0 <= j <= |x| ensures sep in s[j..] {
      assert s[j..][|x| - j] == sep;
    }
    assert k > |x|;
    // past the separator there is none
    forall j | |x| < j < |s| ensures s[j] != sep {
      assert s[j] == y[j - |x| - 1];
    }
    assert s[k - 1] == sep;
    assert k == |x| + 1;
    assert s[|x| + 1..] == y;
  }

  // ---------------------------------------------------------------------------
  // decimal digits

  predicate IsDigit(c: char) {
    '0' <= c <= '9'
  }

  predicate AllDigits(s: string) {
    forall i :: 0 <= i < |s| ==> IsDigit(s[i])
  }

  function DigitChar(d: nat): (c: char)
    requires d < 10
    ensures IsDigit(c)
  {
    ('0' as int + d) as char
  }

  function DigitValue(c: char): nat
    requires IsDigit(c)
  {
    c as int - '0' as int
  }

  /** The decimal rendering JavaScript gives a non-negative integer: at
      least one digit, and a leading `0` only for zero itself. */
  function Dec(n: nat): (r: string)
    ensures |r| >= 1 && AllDigits(r)
    ensures r[0] == '0' ==> n == 0
  {
    if n < 10 then [DigitChar(n)] else Dec(n / 10) + [DigitChar(n % 10)]
  }

  /** Decimal text holds no separator character. */
  lemma DecFree(n: nat, c: char)
    requires !IsDigit(c)
    ensures c !in Dec(n)
  {
    var r := Dec(n);
    forall i | 0 <= i < |r| ensures r[i] != c {
      assert IsDigit(r[i]);
    }
  }

  /** `String(i)` for an integer. */
  function IntToString(i: int): string {
    if i < 0 then "-" + Dec(-i) else Dec(i)
  }

  /** The value of a run of decimal digits, most significant first. */
  function DigitsValue(ds: string): nat
    requires AllDigits(ds)
  {
    if ds == [] then 0 else DigitsValue(ds[..|ds| - 1]) * 10 + DigitValue(ds[|ds| - 1])
  }

  lemma {:induction false} DecValue(n: nat)
    ensures DigitsValue(Dec(n)) == n
  {
    if n >= 10 {
      DecValue(n / 10);
      var r := Dec(n);
      assert r[..|r| - 1] == Dec(n / 10);
    }
  }

  /** Distinct numbers have distinct renderings. */
  lemma DecInjective(m: nat, n: nat)
    requires Dec(m) == Dec(n)
    ensures m == n
  {
    DecValue(m);
    DecValue(n);
  }

  // ---------------------------------------------------------------------------
  // parseInt(s, 10)

  /** The white space `parseInt` skips: tab, line feed, vertical tab, form
      feed, carriage return, the Unicode space separators, the line and
      paragraph separators and the byte order mark. */
  predicate IsJsSpace(c: char) {
    var k := c as int;
    k == 0x09 || k == 0x0A || k == 0x0B || k == 0x0C || k == 0x0D || k == 0x20
    || k == 0xA0 || k == 0x1680 || (0x2000 <= k <= 0x200A) || k == 0x2028
    || k == 0x2029 || k == 0x202F || k == 0x205F || k == 0x3000 || k == 0xFEFF
  }

  function TrimStart(s: string): (r: string)
    ensures |r| <= |s| && r == s[|s| - |r|..]
    ensures |r| > 0 ==> !IsJsSpace(r[0])
    ensures (|s| > 0 && !IsJsSpace(s[0])) ==> r == s
  {
    if |s| > 0 && IsJsSpace(s[0]) then TrimStart(s[1..]) else s
  }

  /** The longest prefix of `s` made of decimal digits. */
  function LeadingDigits(s: string): (ds: string)
    ensures ds <= s && AllDigits(ds)
    ensures |ds| < |s| ==> !IsDigit(s[|ds|])
  {
    if |s| > 0 && IsDigit(s[0]) then [s[0]] + LeadingDigits(s[1..]) else []
  }

  /** `parseInt(s, 10)`; `None` stands for `NaN`. Leading white space and one
      sign are skipped, then the longest run of digits is read. */
  function ParseInt(s: string): Option<int> {
    var t := TrimStart(s);
    var negative := |t| > 0 && t[0] == '-';
    var unsigned := if |t| > 0 && (t[0] == '-' || t[0] == '+') then t[1..] else t;
    var ds := LeadingDigits(unsigned);
    var magnitude: int := if ds == [] then 0 else DigitsValue(ds);
    if ds == [] then None
    else if negative then Some(-magnitude)
    else Some(magnitude)
  }

  lemma LeadingDigitsAll(s: string)
    requires AllDigits(s)
    ensures LeadingDigits(s) == s
  {
  }

  /** A plain run of digits parses to its value. */
  lemma ParseIntDigits(d: string)
    requires |d| > 0 && AllDigits(d)
    ensures ParseInt(d) == Some(DigitsValue(d))
  {
    assert IsDigit(d[0]);
    DigitNotSpace(d[0]);
    assert TrimStart(d) == d;
    LeadingDigitsAll(d);
  }

  lemma DigitNotSpace(c: char)
    requires IsDigit(c)
    ensures !IsJsSpace(c) && c != '-' && c != '+'
  {
  }

  /** `parseInt` reads back what `Dec` renders. */
  lemma ParseIntDec(n: nat)
    ensures ParseInt(Dec(n)) == Some(n)
  {
    ParseIntDigits(Dec(n));
    DecValue(n);
  }

  // ---------------------------------------------------------------------------
  // the default string order of Array.prototype.sort

  /** `a` sorts before or equal to `b`, comparing character codes. */
  predicate LexLe(a: string, b: string)
    decreases |a|
  {
    |a| == 0 || (|b| > 0 && (a[0] < b[0] || (a[0] == b[0] && LexLe(a[1..], b[1..]))))
  }

  lemma {:induction false} LexLeTotal(a: string, b: string)
    ensures LexLe(a, b) || LexLe(b, a)
    decreases |a|
  {
    if |a| > 0 && |b| > 0 && a[0] == b[0] {
      LexLeTotal(a[1..], b[1..]);
    }
  }

  lemma {:induction false} LexLeTrans(a: string, b: string, c: string)
    requires LexLe(a, b) && LexLe(b, c)
    ensures LexLe(a, c)
    decreases |a|
  {
    if |a| > 0 && a[0] == b[0] && b[0] == c[0] {
      LexLeTrans(a[1..], b[1..], c[1..]);
    }
  }

  lemma {:induction false} LexLeAntisym(a: string, b: string)
    requires LexLe(a, b) && LexLe(b, a)
    ensures a == b
    decreases |a|
  {
    if |a| > 0 {
      LexLeAntisym(a[1..], b[1..]);
      assert a == [a[0]] + a[1..];
      assert b == [b[0]] + b[1..];
    }
  }
}

=== FILE: truenas.dfy ===
/** `generateTrueNASValues` of lib/truenas.ts: maps the first service of a
    compose document to a TrueNAS chart values object. The YAML parser and
    printer are not modelled: the generator receives the loaded document
    (`None` when `yaml.load` throws) and returns the values object before it
    is dumped. */
module TrueNas {
  import opened Wrappers
  import opened Strings
  import opened Json
  import opened Seqs

  /** A persistence entry; every entry is written with `enabled: true`. */
  datatype Volume =
    | IxVolume(datasetName: string, mountPath: string)
    | HostPath(hostPath: string, mountPath: string)

  /** The values object. The constant parts of the template (`pullPolicy:
      IfNotPresent`, `protocol: TCP`) are left implicit. A port of `None` is
      `NaN`, what `parseInt` gives for text without digits. */
  datatype Values = Values(
    repository: string,
    tag: string,
    port: Option<int>,
    targetPort: Option<int>,
    env: seq<Field>,
    persistence: map<string, Volume>)

  datatype Output =
    | NoServices        // "# No services found"
    | GenerationError   // "# Error generating TrueNAS template"
    | Generated(values: Values)

  const DefaultPort := 10000
  const DefaultTargetPort := 80

  /** The first service: `services[Object.keys(services)[0]]`; `None` when the
      value has no keys. */
  function FirstService(services: Value): (r: Option<Value>)
    ensures services.Obj? ==> (r.Some? <==> services.fields != [])
    ensures services.Obj? && services.fields != [] ==> r == Some(services.fields[0].val)
  {
    match services
    case Obj(fields) => if fields == [] then None else Some(fields[0].val)
    case Arr(items) => if items == [] then None else Some(items[0])
    case Str(s) => if s == "" then None else Some(Str([s[0]]))
    case _ => None
  }

  /** `(image || "").split(':')` read as repository and tag; `None` when a
      truthy non-string image makes `split` throw. */
  function ImageRef(image: Value): (r: Option<(string, string)>)
    ensures r.None? <==> Truthy(image) && !image.Str?
    ensures r.Some? ==> r.value.0 != "" && r.value.1 != "" && ':' !in r.value.0
    ensures !Truthy(image) ==> r == Some(("image", "latest"))
    ensures image.Str? && image.s != "" ==> var parts := Split(image.s, ':');
      && r.Some?
      && r.value.0 == (if parts[0] != "" then parts[0] else "image")
      && r.value.1 == (if |parts| >= 2 && parts[1] != "" then parts[1] else "latest")
  {
    var text := if Truthy(image) then (if image.Str? then Some(image.s) else None) else Some("");
    match text
    case None => None
    case Some(t) =>
      var parts := Split(t, ':');
      var repository := if parts[0] == "" then "image" else parts[0];
      var tag := if |parts| >= 2 && parts[1] != "" then parts[1] else "latest";
      Some((repository, tag))
  }

  /** `image: repo:tag` gives back the two parts; `repo` alone gets the
      `latest` tag; no image at all gives `image:latest`. */
  lemma ImageRoundTrip(repository: string, tag: string)
    requires repository != "" && ':' !in repository && tag != "" && ':' !in tag
    ensures ImageRef(Str(repository + [':'] + tag)) == Some((repository, tag))
    ensures ImageRef(Str(repository)) == Some((repository, "latest"))
    ensures ImageRef(Undef) == Some(("image", "latest"))
  {
    SplitCons(repository, ':', tag);
    assert Split(tag, ':') == [tag];
  }

  /** Anything after a second `:` is ignored. */
  lemma ImageExtraParts(repository: string, tag: string, rest: string)
    requires repository != "" && ':' !in repository && tag != "" && ':' !in tag
    ensures ImageRef(Str(repository + [':'] + (tag + [':'] + rest))) == Some((repository, tag))
  {
    var parts := Split(repository + [':'] + (tag + [':'] + rest), ':');
    SplitCons(tag, ':', rest);
    SplitCons(repository, ':', tag + [':'] + rest);
    assert parts[0] == repository && parts[1] == tag;
  }

  /** An empty repository part (`":tag"`) becomes `image`. */
  lemma ImageEmptyRepository(tag: string)
    requires tag != "" && ':' !in tag
    ensures ImageRef(Str([':'] + tag)) == Some(("image", tag))
  {
    SplitCons("", ':', tag);
    assert "" + [':'] + tag == [':'] + tag;
    assert Split(tag, ':') == [tag];
    assert Split([':'] + tag, ':') == ["", tag];
  }

  /** `o.length > 0` for an object `o` whose own `length` field is `len`: a
      number compares as itself, `true` as 1; `undefined` and `null` do not
      pass. */
  predicate PositiveLength(len: Value) {
    (len.Num? && len.n > 0) || len == Bool(true)
  }

  /** Port and target port read from one `ports` entry: a string with at
      least two `:`-separated parts, else the defaults. */
  function PortsOfEntry(first: Value): (r: (Option<int>, Option<int>))
    ensures !first.Str? ==> r == (Some(DefaultPort), Some(DefaultTargetPort))
    ensures first.Str? && |Split(first.s, ':')| < 2 ==> r == (Some(DefaultPort), Some(DefaultTargetPort))
    ensures first.Str? && |Split(first.s, ':')| >= 2 ==>
      r == (ParseInt(Split(first.s, ':')[0]), ParseInt(Split(first.s, ':')[1]))
  {
    match first
    case Str(p) =>
      var parts := Split(p, ':');
      if |parts| >= 2 then (ParseInt(parts[0]), ParseInt(parts[1]))
      else (Some(DefaultPort), Some(DefaultTargetPort))
    case _ => (Some(DefaultPort), Some(DefaultTargetPort))
  }

  /** Port and target port of a service: only `ports[0]` is read, and only
      when `ports.length > 0`: a non-empty list or string, or an object whose
      `length` field passes. Other values have no `length`. */
  function Ports(ports: Value): (r: (Option<int>, Option<int>))
    ensures !(Truthy(ports) && (ports.Arr? || ports.Str? || ports.Obj?)) ==> r == (Some(DefaultPort), Some(DefaultTargetPort))
    ensures ports.Arr? && ports.items != [] ==> r == PortsOfEntry(ports.items[0])
    ensures ports.Arr? && ports.items == [] ==> r == (Some(DefaultPort), Some(DefaultTargetPort))
    ensures ports.Str? && ports.s != "" ==> r == PortsOfEntry(Str([ports.s[0]]))
    ensures ports.Obj? ==>
      && (PositiveLength(Get(ports.fields, "length")) ==> r == PortsOfEntry(Get(ports.fields, "0")))
      && (!PositiveLength(Get(ports.fields, "length")) ==> r == (Some(DefaultPort), Some(DefaultTargetPort)))
  {
    match ports
    case Arr(items) => if items != [] then PortsOfEntry(items[0]) else (Some(DefaultPort), Some(DefaultTargetPort))
    case Str(s) => if s != "" then PortsOfEntry(Str([s[0]])) else (Some(DefaultPort), Some(DefaultTargetPort))
    case Obj(fields) =>
      if PositiveLength(Get(fields, "length")) then PortsOfEntry(Get(fields, "0"))
      else (Some(DefaultPort), Some(DefaultTargetPort))
    case _ => (Some(DefaultPort), Some(DefaultTargetPort))
  }

  /** A first entry `"h:c"` sets the port to `h` and the target port to `c`. */
  lemma PortsRoundTrip(host: nat, container: nat)
    ensures PortsOfEntry(Str(Dec(host) + [':'] + Dec(container))) == (Some(host), Some(container))
  {
    var h, c := Dec(host), Dec(container);
    DecFree(host, ':');
    DecFree(container, ':');
    SplitCons(h, ':', c);
    assert Split(c, ':') == [c];
    var parts := Split(h + [':'] + c, ':');
    assert parts == [h, c];
    ParseIntDec(host);
    ParseIntDec(container);
  }

  /** With a host address in front (`"a:h:c"`), the address is read as the
      port and the host port as the target port. */
  lemma PortsWithAddress(address: string, host: nat, container: nat)
    requires ':' !in address
    ensures PortsOfEntry(Str(address + [':'] + (Dec(host) + [':'] + Dec(container))))
         == (ParseInt(address), Some(host))
  {
    DecFree(host, ':');
    DecFree(container, ':');
    var text := address + [':'] + (Dec(host) + [':'] + Dec(container));
    SplitThree(address, Dec(host), Dec(container), ':');
    assert Split(text, ':')[0] == address && Split(text, ':')[1] == Dec(host);
    ParseIntDec(host);
  }

  /** One `KEY=value` entry of an environment list; `None` when the entry is
      not a string and `split` throws. The text after a second `=` is lost. */
  function EnvEntry(e: Value): (r: Option<Field>)
    ensures r.None? <==> !e.Str?
    ensures r.Some? ==> '=' !in r.value.key && r.value.val.Str? && '=' !in r.value.val.s
    ensures e.Str? ==> var parts := Split(e.s, '=');
      && r.Some? && r.value.key == parts[0]
      && r.value.val == Str(if |parts| >= 2 then parts[1] else "")
  {
    match e
    case Str(text) =>
      var parts := Split(text, '=');
      Some(Field(parts[0], Str(if |parts| >= 2 then parts[1] else "")))
    case _ => None
  }

  /** `KEY=value` gives the pair back, and `KEY` alone gets an empty value. */
  lemma EnvEntryRoundTrip(key: string, val: string)
    requires '=' !in key && '=' !in val
    ensures EnvEntry(Str(key + "=" + val)) == Some(Field(key, Str(val)))
    ensures EnvEntry(Str(key)) == Some(Field(key, Str("")))
  {
    SplitCons(key, '=', val);
    assert key + "=" + val == key + ['='] + val;
    assert Split(val, '=') == [val];
  }

  /** The entries of an environment list, or `None` if one of them throws. */
  function EnvEntries(items: seq<Value>): (r: Option<seq<Field>>)
    ensures r.None? <==> exists i :: 0 <= i < |items| && !items[i].Str?
    ensures r.Some? ==> |r.value| == |items| && forall i :: 0 <= i < |items| ==> Some(r.value[i]) == EnvEntry(items[i])
  {
    Traverse(items, EnvEntry)
  }

  /** The container environment: a list is applied entry by entry, anything
      else truthy is copied with a spread. */
  function Env(env: Value): (r: Option<seq<Field>>)
    ensures !Truthy(env) ==> r == Some([])
    ensures env.Obj? ==> r == Some(env.fields)
    ensures r.None? <==> env.Arr? && exists i :: 0 <= i < |env.items| && !env.items[i].Str?
  {
    if !Truthy(env) then Some([])
    else
      if env.Arr? then
        var fields := EnvEntries(env.items);
        if fields.None? then None else Some(Store(fields.value))
      else Some(OwnEntries(env))
  }

  /** For a list environment the last entry naming a key decides its value;
      the key `__proto__` gives no variable. */
  lemma EnvLastWins(items: seq<Value>, k: string)
    requires forall i :: 0 <= i < |items| ==> items[i].Str?
    ensures Env(Arr(items)).Some?
    ensures var fields := EnvEntries(items).value;
            && (HasKey(Env(Arr(items)).value, k) <==> k != ProtoKey && HasKey(fields, k))
            && Get(Env(Arr(items)).value, k) == if k != ProtoKey && HasKey(fields, k) then GetLast(fields, k) else Undef
  {
    var fields := EnvEntries(items);
    assert fields.Some?;
    assert Env(Arr(items)) == Some(Store(fields.value));
    StoreGet(fields.value, k);
  }

  /** A host path counts as a named volume unless it starts with `/`, `.` or `~`. */
  predicate IsNamedVolume(host: string) {
    !StartsWith(host, "/") && !StartsWith(host, ".") && !StartsWith(host, "~")
  }

  /** The persistence entry of one volume entry: only a string whose first two
      `:`-separated parts are both non-empty produces one. */
  function VolumeOf(v: Value): (r: Option<Volume>)
    ensures r.Some? ==> v.Str? && |Split(v.s, ':')| >= 2
    ensures r.Some? ==> var parts := Split(v.s, ':');
      && parts[0] != "" && parts[1] != ""
      && r.value == (if IsNamedVolume(parts[0]) then IxVolume(parts[0], parts[1]) else HostPath(parts[0], parts[1]))
    ensures r.None? ==> !v.Str? || |Split(v.s, ':')| < 2 || Split(v.s, ':')[0] == "" || Split(v.s, ':')[1] == ""
  {
    match v
    case Str(text) =>
      if text == "" then None
      else
        var parts := Split(text, ':');
        if |parts| >= 2 && parts[0] != "" && parts[1] != "" then
          Some(if IsNamedVolume(parts[0]) then IxVolume(parts[0], parts[1]) else HostPath(parts[0], parts[1]))
        else None
    case _ => None
  }

  function VolumeName(i: nat): string {
    "vol" + Dec(i)
  }

  lemma VolumeNameInjective(i: nat, j: nat)
    requires VolumeName(i) == VolumeName(j)
    ensures i == j
  {
    assert Dec(i) == VolumeName(i)[3..] == VolumeName(j)[3..] == Dec(j);
    DecInjective(i, j);
  }

  /** The persistence entries of the first `n` volume entries, named after
      their position in the whole list. */
  function Persistence(items: seq<Value>, n: nat): (m: map<string, Volume>)
    requires n <= |items|
    ensures forall i :: 0 <= i < n ==> (VolumeName(i) in m <==> VolumeOf(items[i]).Some?)
    ensures forall i :: 0 <= i < n && VolumeName(i) in m ==> m[VolumeName(i)] == VolumeOf(items[i]).value
    ensures forall k :: k in m ==> exists i :: 0 <= i < n && k == VolumeName(i)
  {
    if n == 0 then map[]
    else
      var m := Persistence(items, n - 1);
      forall i | 0 <= i < n - 1 ensures VolumeName(i) != VolumeName(n - 1) {
        if VolumeName(i) == VolumeName(n - 1) { VolumeNameInjective(i, n - 1); }
      }
      match VolumeOf(items[n - 1])
      case None => m
      case Some(vol) => m[VolumeName(n - 1) := vol]
  }

  /** The persistence of a service: only a volume list (always truthy) has
      entries. */
  function VolumesOf(volumes: Value): (m: map<string, Volume>)
    ensures !volumes.Arr? ==> m == map[]
    ensures volumes.Arr? ==> m == Persistence(volumes.items, |volumes.items|)
  {
    match volumes
    case Arr(items) => Persistence(items, |items|)
    case _ => map[]
  }

  /** `generateTrueNASValues(content)`, given `yaml.load(content)`. */
  function GenerateTrueNasValues(loaded: Option<Value>): (r: Output)
    ensures loaded.None? ==> r == GenerationError
    ensures loaded.Some? && !Truthy(loaded.value) ==> r == NoServices
    ensures loaded.Some? && Truthy(loaded.value) && !Truthy(Prop(loaded.value, "services").value) ==> r == NoServices
    ensures (loaded.Some? && loaded.value.Obj? && Truthy(Get(loaded.value.fields, "services"))
             && FirstService(Get(loaded.value.fields, "services")).None?) ==> r == NoServices
    ensures (loaded.Some? && Truthy(loaded.value) && Truthy(Prop(loaded.value, "services").value)
             && FirstService(Prop(loaded.value, "services").value).Some?)
            ==> r == FromService(FirstService(Prop(loaded.value, "services").value).value)
  {
    match loaded
    case None => GenerationError
    case Some(compose) =>
      if !Truthy(compose) then NoServices
      else
        var services := Prop(compose, "services").value;
        if !Truthy(services) then NoServices
        else
          match FirstService(services)
          case None => NoServices
          case Some(service) => FromService(service)
  }

  /** The values derived from the chosen service, or the error a TypeError
      leads to. */
  function FromService(service: Value): (r: Output)
    ensures r.NoServices? == false
    ensures (service.Undef? || service.Null?) ==> r == GenerationError
    ensures r.Generated? <==> !(service.Undef? || service.Null?)
                              && ImageRef(Prop(service, "image").value).Some?
                              && Env(Prop(service, "environment").value).Some?
    ensures r.Generated? ==> ImageRef(Prop(service, "image").value) == Some((r.values.repository, r.values.tag))
    ensures r.Generated? ==> (r.values.port, r.values.targetPort) == Ports(Prop(service, "ports").value)
    ensures r.Generated? ==> Some(r.values.env) == Env(Prop(service, "environment").value)
    ensures r.Generated? ==> r.values.persistence == VolumesOf(Prop(service, "volumes").value)
  {
    if service.Undef? || service.Null? then GenerationError
    else
      var image := ImageRef(Prop(service, "image").value);
      var ports := Ports(Prop(service, "ports").value);
      var env := Env(Prop(service, "environment").value);
      var persistence := VolumesOf(Prop(service, "volumes").value);
      if image.None? || env.None? then GenerationError
      else Generated(Values(image.value.0, image.value.1, ports.0, ports.1, env.value, persistence))
  }

  /** Only the first service is consulted: later services never change the
      output. */
  lemma OnlyFirstService(first: Field, later: seq<Field>, later': seq<Field>, top: seq<Field>)
    ensures GenerateTrueNasValues(Some(Obj([Field("services", Obj([first] + later))] + top)))
         == GenerateTrueNasValues(Some(Obj([Field("services", Obj([first] + later'))] + top)))
  {
  }

  /** Volume entries map to `vol<index>` exactly when they are usable, so
      skipped entries leave gaps in the numbering. */
  lemma VolumeEntries(service: Value, i: nat)
    requires service.Obj?
    requires var vs := Get(service.fields, "volumes"); vs.Arr? && i < |vs.items|
    requires FromService(service).Generated?
    ensures var vs := Get(service.fields, "volumes").items;
            var p := FromService(service).values.persistence;
            && (VolumeName(i) in p <==> VolumeOf(vs[i]).Some?)
            && (VolumeName(i) in p ==> p[VolumeName(i)] == VolumeOf(vs[i]).value)
  {
  }
}

=== FILE: url_guard.dfy ===
/** `isSafeUrl` of lib/utils.ts: a static check of a URL's protocol and of
    the text of its host name against three literals (`localhost`,
    `127.0.0.1`, `::1`) and a few address prefixes (`192.168.`, `10.`,
    `0.0.0.0`, and `172.` with a second label from 16 to 31). It is no full
    test for loopback or private addresses: other 127/8 addresses pass. The
    URL parser is not modelled: the guard receives the parse result, `None`
    when `new URL(url)` throws. */
module UrlGuard {
  import opened Wrappers
  import opened Strings

  /** The `protocol` (with its trailing colon) and `hostname` of a parsed URL. */
  datatype ParsedUrl = ParsedUrl(protocol: string, hostname: string)

  /** `isSafeUrl(url)`, following the early returns of the code. */
  function IsSafeUrl(url: Option<ParsedUrl>): (safe: bool)
    ensures safe ==> url.Some?
    ensures safe ==> url.value.protocol == "http:" || url.value.protocol == "https:"
    ensures safe ==> url.value.hostname != "localhost" && url.value.hostname != "127.0.0.1" && url.value.hostname != "::1"
    ensures safe ==> !StartsWith(url.value.hostname, "192.168.") && !StartsWith(url.value.hostname, "10.")
                     && !StartsWith(url.value.hostname, "0.0.0.0")
  {
    match url
    case None => false
    case Some(u) =>
      var h := u.hostname;
      if u.protocol != "http:" && u.protocol != "https:" then false
      else if h == "localhost" || h == "127.0.0.1" || h == "::1" then false
      else if StartsWith(h, "192.168.") || StartsWith(h, "10.") || StartsWith(h, "0.0.0.0") then false
      else if StartsWith(h, "172.") then
        var parts := Split(h, '.');
        if |parts| == 4 then
          match ParseInt(parts[1])
          case Some(second) => !(16 <= second <= 31)
          case None => true   // NaN fails both comparisons
        else true
      else true
  }

  /** The canonical dotted-decimal host name `a.b.c.d`. */
  function Quad(a: nat, b: nat, c: nat, d: nat): string {
    Dec(a) + ['.'] + (Dec(b) + ['.'] + (Dec(c) + ['.'] + Dec(d)))
  }

  /** The numeric reading of the guard: the addresses it refuses among the
      dotted-decimal literals. */
  predicate RefusedAddress(a: nat, b: nat, c: nat, d: nat) {
    || a == 10
    || (a == 172 && 16 <= b <= 31)
    || (a == 192 && b == 168)
    || (a == 127 && b == 0 && c == 0 && d == 1)
    || (a == 0 && b == 0 && c == 0 && d == 0)
  }

  lemma IndexOfFirst(x: string, y: string)
    requires '.' !in x
    ensures IndexOf(x + ['.'] + y, '.') == |x|
  {
    var s := x + ['.'] + y;
    assert s[..|x|] == x;
    assert s[|x|] == '.';
  }

  lemma PrefixConcat(u: string, v: string, w: string)
    ensures (u + v <= w) <==> (u <= w && v <= w[|u|..])
  {
    if u <= w && v <= w[|u|..] {
      assert w[..|u| + |v|] == w[..|u|] + w[|u|..][..|v|];
    }
  }

  /** A string starts with `p.` followed by `more` exactly when its first
      label is `p` and the rest after that dot starts with `more`. */
  lemma LabelPrefix(x: string, rest: string, p: string, more: string)
    requires '.' !in x && '.' !in p
    ensures (p + ['.'] + more <= x + ['.'] + rest) <==> (x == p && more <= rest)
  {
    var t := x + ['.'] + rest;
    var s := p + ['.'];
    PrefixConcat(s, more, t);
    IndexOfFirst(x, rest);
    if s <= t {
      assert t == p + ['.'] + t[|s|..];
      IndexOfFirst(p, t[|s|..]);
      assert |x| == |p|;
      assert x == t[..|x|] == p;
    }
    assert x == p ==> t[|s|..] == rest;
  }

  lemma Constants()
    ensures Dec(10) == "10" && Dec(172) == "172" && Dec(192) == "192" && Dec(168) == "168"
    ensures Dec(127) == "127" && Dec(0) == "0" && Dec(1) == "1"
  {
    assert Dec(1) == "1" && Dec(17) == "17" && Dec(19) == "19" && Dec(16) == "16" && Dec(12) == "12";
  }

  /** The label a literal starts with decides each prefix test. */
  lemma QuadPrefixes(a: nat, b: nat, c: nat, d: nat)
    ensures StartsWith(Quad(a, b, c, d), "10.") <==> a == 10
    ensures StartsWith(Quad(a, b, c, d), "172.") <==> a == 172
    ensures StartsWith(Quad(a, b, c, d), "192.168.") <==> a == 192 && b == 168
  {
    Constants();
    DecFree(a, '.');
    DecFree(b, '.');
    var rest := Dec(b) + ['.'] + (Dec(c) + ['.'] + Dec(d));
    var rest2 := Dec(c) + ['.'] + Dec(d);
    assert "10." == "10" + ['.'] + "";
    assert "172." == "172" + ['.'] + "";
    assert "192.168." == "192" + ['.'] + ("168" + ['.'] + "");
    LabelPrefix(Dec(a), rest, "10", "");
    LabelPrefix(Dec(a), rest, "172", "");
    LabelPrefix(Dec(a), rest, "192", "168" + ['.'] + "");
    LabelPrefix(Dec(b), rest2, "168", "");
    if Dec(a) == "10" { DecInjective(a, 10); }
    if Dec(a) == "172" { DecInjective(a, 172); }
    if Dec(a) == "192" { DecInjective(a, 192); }
    if Dec(b) == "168" { DecInjective(b, 168); }
  }

  lemma QuadZeroPrefix(a: nat, b: nat, c: nat, d: nat)
    ensures StartsWith(Quad(a, b, c, d), "0.0.0.0") <==> a == 0 && b == 0 && c == 0 && d == 0
  {
    Constants();
    DecFree(a, '.');
    DecFree(b, '.');
    DecFree(c, '.');
    var r1 := Dec(b) + ['.'] + (Dec(c) + ['.'] + Dec(d));
    var r2 := Dec(c) + ['.'] + Dec(d);
    assert "0.0.0.0" == "0" + ['.'] + ("0" + ['.'] + ("0" + ['.'] + "0"));
    LabelPrefix(Dec(a), r1, "0", "0" + ['.'] + ("0" + ['.'] + "0"));
    LabelPrefix(Dec(b), r2, "0", "0" + ['.'] + "0");
    LabelPrefix(Dec(c), Dec(d), "0", "0");
    if Dec(a) == "0" { DecInjective(a, 0); }
    if Dec(b) == "0" { DecInjective(b, 0); }
    if Dec(c) == "0" { DecInjective(c, 0); }
    assert "0" <= Dec(d) <==> d == 0;
  }

  lemma SplitFour(w: string, x: string, y: string, z: string)
    requires '.' !in w && '.' !in x && '.' !in y && '.' !in z
    ensures Split(w + ['.'] + (x + ['.'] + (y + ['.'] + z)), '.') == [w, x, y, z]
  {
    assert Split(z, '.') == [z];
    SplitCons(y, '.', z);
    SplitCons(x, '.', y + ['.'] + z);
    SplitCons(w, '.', x + ['.'] + (y + ['.'] + z));
  }

  /** A literal splits into its four labels. */
  lemma QuadSplit(a: nat, b: nat, c: nat, d: nat)
    ensures Split(Quad(a, b, c, d), '.') == [Dec(a), Dec(b), Dec(c), Dec(d)]
  {
    DecFree(a, '.');
    DecFree(b, '.');
    DecFree(c, '.');
    DecFree(d, '.');
    SplitFour(Dec(a), Dec(b), Dec(c), Dec(d));
  }

  lemma QuadLoopback(a: nat, b: nat, c: nat, d: nat)
    ensures Quad(a, b, c, d) == "127.0.0.1" <==> a == 127 && b == 0 && c == 0 && d == 1
    ensures Quad(a, b, c, d) != "localhost" && Quad(a, b, c, d) != "::1"
  {
    Constants();
    assert Quad(127, 0, 0, 1) == "127.0.0.1";
    assert IsDigit(Quad(a, b, c, d)[0]);
    if Quad(a, b, c, d) == "127.0.0.1" {
      QuadSplit(a, b, c, d);
      QuadSplit(127, 0, 0, 1);
      DecInjective(a, 127);
      DecInjective(b, 0);
      DecInjective(c, 0);
      DecInjective(d, 1);
    }
  }

  /** The `172.` test of the guard on its own. */
  predicate In172Private(h: string) {
    StartsWith(h, "172.") && |Split(h, '.')| == 4
    && ParseInt(Split(h, '.')[1]).Some? && 16 <= ParseInt(Split(h, '.')[1]).value <= 31
  }

  lemma SafeWebHost(protocol: string, h: string)
    requires protocol == "http:" || protocol == "https:"
    ensures IsSafeUrl(Some(ParsedUrl(protocol, h))) <==>
      && !(h == "localhost" || h == "127.0.0.1" || h == "::1")
      && !(StartsWith(h, "192.168.") || StartsWith(h, "10.") || StartsWith(h, "0.0.0.0"))
      && !In172Private(h)
  {
  }

  lemma Quad172(a: nat, b: nat, c: nat, d: nat)
    ensures In172Private(Quad(a, b, c, d)) <==> a == 172 && 16 <= b <= 31
  {
    var q := Quad(a, b, c, d);
    QuadPrefixes(a, b, c, d);
    assert StartsWith(q, "172.") <==> a == 172;
    QuadSplit(a, b, c, d);
    var parts := Split(q, '.');
    assert |parts| == 4 && parts[1] == Dec(b);
    ParseIntDec(b);
    assert ParseInt(parts[1]) == Some(b);
  }

  /** On dotted-decimal literals the text checks refuse exactly the 10/8,
      172.16/12 and 192.168/16 ranges, the single loopback address
      127.0.0.1 and 0.0.0.0: other 127/8 loopback addresses pass. */
  lemma QuadVerdict(protocol: string, a: nat, b: nat, c: nat, d: nat)
    requires protocol == "http:" || protocol == "https:"
    ensures IsSafeUrl(Some(ParsedUrl(protocol, Quad(a, b, c, d)))) <==> !RefusedAddress(a, b, c, d)
  {
    SafeWebHost(protocol, Quad(a, b, c, d));
    QuadPrefixes(a, b, c, d);
    QuadZeroPrefix(a, b, c, d);
    QuadLoopback(a, b, c, d);
    Quad172(a, b, c, d);
  }
}

=== FILE: wrappers.dfy ===
/** Optional values and results with an error payload, used wherever the
    JavaScript returns `undefined`/`null` or throws. */
module Wrappers {

  datatype Option<+T> = None | Some(value: T) {
    function GetOr(default: T): T {
      match this
      case Some(v) => v
      case None => default
    }
  }

  datatype Result<+T, +E> = Success(value: T) | Failure(error: E)
}
